=== FILE: README.md ===
# tableau.h in Dafny

This project models the sparse vector and tableau library of `tableau.h`, the
storage layer underneath a simplex solver.

- **List.** A `List<T>` is a sparse vector. It keeps two parallel buffers, `index_` and
  `data_`, and a capacity. Its indices should be strictly increasing, and the list reads
  as 0 wherever nothing is stored.
- **Tableau.** A `Tableau<T>` holds one matrix twice: once as an array of row lists and
  once as an array of column lists. It offers whole-tableau addition, the append
  operations a pivoting driver uses, and `List::Cross`, which builds a tableau as an
  outer product.
- **SparseTableau.** A `SparseTableau<T>` is the sparse counterpart. Each of its row
  slots and column slots also records the logical index it stands for. `List::SparseCross`
  builds one.

The scalar type `T` is `int` throughout. The modules are:

- `Wrappers` (`wrappers.dfy`): the `Option` result.
- `Lists` (`lists.dfy`): the list and its operations.
  - A `List` is its live entries plus its capacity.
  - `Lookup` is the abstract view that every law is stated against: the value at an
    index, or 0 when nothing is stored there.
  - Binary search, `At`, `Set`, `Append`, `Pop`, `Clear`, `Scale`, `Map`, `Reduce`
    with `MinReduce`, and the iterator.
  - `Append` returns `None` when it would write past the end of its buffers.
- `ListArith` (`list_arith.dfy`): the three merge walks, `Add`, `Mul` and `Dot`.
  - Each has a recursive reference definition.
  - Each has a loop method that follows the source's loop and is proved equal to that
    definition.
- `SparseTableaus` (`sparse_tableau.dfy`): the slot accessors, `SetRow` / `SetCol` and
  `SparseCross`.
- `Tableaus` (`tableau.dfy`): the dense tableau.
  - `Consistent` states the two-view invariant: row r read at column c equals column c
    read at row r.
  - Both `Add`s, `SetRow` / `SetCol`, `Cross`, `AppendRow` / `AppendCol`,
    `AppendExtraCol` and `RemoveExtraCol`.

The source has no error values. Out-of-range positions are undefined behaviour there, so
in the model they are preconditions. Writing past a buffer is the one failure the model
keeps, as `Option.None`.

## Model

| member | source | states |
|---|---|---|
| Lists.GrowCapacity | tableau.h:47-50 | the doubling loop stops at a power of two that is at least the requested size, and at the least such power: half of it is below the size unless it is the starting value |
| Lists.InitialCapacity | tableau.h:46-50 | a new list's capacity is the least power of two holding the requested size, and never less than 1 |
| Lists.Size | tableau.h:227 | a plain projection: the number of live entries |
| Lists.New | tableau.h:46-54 | a new list is empty, reads 0 everywhere, and its buffers hold at least the requested size (and at least one slot) |
| Lists.Clear | tableau.h:75 | clearing keeps the capacity and leaves a list that reads 0 everywhere |
| Lists.SearchRange | tableau.h:267-281 | the halving search returns -1 or a position inside the range that holds the key; on a sorted list it finds the key whenever the range contains it |
| Lists.Find | tableau.h:267-281 | binary search returns -1 or a position holding the key; on a sorted list it returns -1 exactly when the key is not stored |
| Lists.BinarySearch | tableau.h:267-281 | the source's loop computes the same position as the recursive search, hence the same soundness and the iff-completeness on sorted lists |
| Lists.FindLookup | tableau.h:77-81 | on a sorted list the binary-search hit holds the view's value at the key, and a miss means the view reads 0 there |
| Lists.At | tableau.h:77-81 | on a sorted list, At agrees with the abstract view (stored value, or 0 on a miss); a nonzero result always comes from a stored index |
| Lists.Set | tableau.h:83-87 | on a sorted list, Set overwrites the value at an existing index and the view changes at exactly that index; on any list it changes no other position and keeps the indices, size and capacity, and an index that is not stored leaves the list unchanged |
| Lists.Append | tableau.h:229-246 | append keeps the old entries as a prefix and puts (index, value) last; it doubles the capacity exactly when the buffers are full; it fails exactly when the capacity is 0; the result stays sorted iff the new index exceeds the last one |
| Lists.AppendLookup | tableau.h:229-246 | after an append, previously stored indices read as before, the new index reads its value (if it was not already stored), and every other index reads 0 |
| Lists.Pop | tableau.h:247-254 | Pop drops the last entry when the list is nonempty and either the expected index is 0 or below or the last entry sits at it; otherwise the list is unchanged; the capacity never changes |
| Lists.PopAfterAppend | tableau.h:229-254 | popping the index just appended restores the entries exactly (the buffers stay grown) |
| Lists.PopZeroIsUnconditional | tableau.h:247-254 | an expected index of 0 is ignored, exactly as the default -1 is, so the last entry goes whatever its index |
| Lists.Scale | tableau.h:176-178 | scaling keeps every index and the capacity and multiplies each stored value, so entries survive a zero factor |
| Lists.ScaleLookup | tableau.h:176-178 | the whole view is multiplied by the factor |
| Lists.Map | tableau.h:196-206 | Map keeps the indices in order, transforms each stored value, and sizes the new buffers as the size constructor does |
| Lists.MapLookup | tableau.h:196-206 | on every list, sorted or not, the mapped view holds the transformed value at stored indices and 0 elsewhere |
| Lists.Reduce | tableau.h:213-220 | Reduce of an empty list is the initial pair; otherwise the last stored pair is combined, as the combiner's first argument, with the reduction of all earlier pairs (see FoldSnoc and ReduceMin) |
| Lists.FoldSnoc | tableau.h:213-220 | Reduce feeds each stored pair as the first argument and the running value as the second, in storage order |
| Lists.MinReduce | tableau.h:209-211 | MinReduce picks one of its arguments, the one with the smaller value, and keeps the first on a tie |
| Lists.FoldMinBound | tableau.h:209-220 | reducing with MinReduce never yields a value above a stored value or the initial one |
| Lists.FoldMinKeepsInit | tableau.h:209-220 | when every stored value is strictly larger than the initial one, the initial pair comes back unchanged |
| Lists.FoldMinLast | tableau.h:209-220 | when some stored value is at most the initial one, the result is a stored entry that every later entry strictly exceeds, i.e. the last one attaining the minimum |
| Lists.FoldMin | tableau.h:209-220 | reducing with MinReduce yields a value no larger than any stored value or the initial one; it returns the initial pair iff every stored value is strictly larger, and otherwise the last entry that attains the minimum |
| Lists.ReduceMin | tableau.h:209-220 | on a list, Reduce with MinReduce returns the initial pair or a stored entry, and its value is the minimum |
| Lists.Begin | tableau.h:27-44 | a plain projection: a cursor at position 0 of the list |
| Lists.Next | tableau.h:32-35 | a plain projection: the cursor moves one position on, over the same list |
| Lists.IsEnd | tableau.h:37 | a plain projection: the cursor has reached or passed the live size |
| Lists.Index | tableau.h:29 | a plain projection: the index stored under the cursor |
| Lists.Data | tableau.h:30 | a plain projection: the value stored under the cursor |
| Lists.IteratorVisitsInOrder | tableau.h:25-44 | walking from Begin, the n-th step reads the n-th stored entry and IsEnd holds exactly once every entry has been read |
| ListArith.MergeAddShape | tableau.h:89-144 | the add merge emits at most the two sizes together, no zero values, and only indices from either input |
| ListArith.MergeAddSorted | tableau.h:89-144 | on sorted inputs the add merge is sorted and reads as the pointwise sum at every index |
| ListArith.Add | tableau.h:89-144 | adding an empty list changes nothing, capacity included; otherwise the capacity becomes the sum of the sizes, zero sums are dropped, only indices of either input appear, and on sorted inputs the result is sorted and equals the pointwise sum everywhere |
| ListArith.AddMerge | tableau.h:94-138 | the source's three loops compute exactly the add merge |
| ListArith.DrainLeft | tableau.h:123-130 | once the other list is used up, the rest of this list is copied through with zero values skipped, exactly as the add merge does |
| ListArith.DrainRight | tableau.h:131-138 | once this list is used up, the rest of the other list is copied through with zero values skipped, exactly as the add merge does |
| ListArith.MergeMulShape | tableau.h:146-174 | the product merge emits at most the smaller size, no zero values, and only indices stored in both inputs |
| ListArith.MergeMulSorted | tableau.h:146-174 | on sorted inputs the product merge is sorted and reads as the pointwise product at every index |
| ListArith.MulEntries | tableau.h:146-174 | the entries Mul keeps: at most the smaller size, no zeros, only common indices; on sorted inputs, sorted and the pointwise product |
| ListArith.Mul | tableau.h:146-174 | as written: the capacity becomes the smaller of the two sizes, and the entries are the intersection with the pointwise product |
| ListArith.MulByEmptyThenAppendOverflows | tableau.h:146-147 | multiplying by an empty list leaves capacity 0, and the next Append then writes past the buffers |
| ListArith.MulFixed | tableau.h:146-174 | the same entries as Mul, but with a capacity of at least 1, so every later Append succeeds |
| ListArith.MulMerge | tableau.h:150-168 | the source's intersection loop computes exactly the product merge |
| ListArith.DotIsSumOfMul | tableau.h:180-194 | the dot walk equals the sum of the values the product merge would keep |
| ListArith.DotMergeSymmetric | tableau.h:180-194 | the dot walk gives the same number with its arguments swapped |
| ListArith.DotMergeIsScatterDot | tableau.h:180-194 | on sorted lists the dot walk equals the reference sum, over one list's entries, of value times the other list's view |
| ListArith.Dot | tableau.h:180-194 | Dot is the sum of the pointwise products over the common indices; on sorted lists it is the reference sum of value times the other's view |
| ListArith.DotSymmetric | tableau.h:180-194 | Dot is symmetric |
| ListArith.DotDisjoint | tableau.h:180-194 | sorted lists that share no index have Dot 0 |
| ListArith.DotLoop | tableau.h:181-193 | the source's loop computes exactly the dot walk |
| SparseTableaus.Rows | tableau.h:454 | a plain projection: the number of row slots |
| SparseTableaus.Cols | tableau.h:455 | a plain projection: the number of column slots |
| SparseTableaus.Row | tableau.h:441-443 | a plain projection: the list held by row slot k |
| SparseTableaus.Col | tableau.h:444-446 | a plain projection: the list held by column slot k |
| SparseTableaus.SparseRowIndexOf | tableau.h:447-449 | a plain projection: the logical row index held by row slot k |
| SparseTableaus.SparseColIndexOf | tableau.h:450-452 | a plain projection: the logical column index held by column slot k |
| SparseTableaus.Blank | tableau.h:420-425 | a new sparse tableau has the requested number of row slots and column slots |
| SparseTableaus.SetRow | tableau.h:461-465 | SetRow rewrites one row slot's logical index and list; no other slot changes |
| SparseTableaus.SetCol | tableau.h:466-470 | SetCol rewrites one column slot's logical index and list; no other slot changes |
| SparseTableaus.FillRows | tableau.h:480-486 | the row loop leaves earlier slots alone and fills slot k with a's k-th index and b scaled by a's k-th value |
| SparseTableaus.FillCols | tableau.h:488-494 | the column loop fills column slot k with b's k-th index and a scaled by b's k-th value |
| SparseTableaus.SparseCross | tableau.h:475-496 | one row slot per entry of a, holding its index and b scaled by its value; one column slot per entry of b, the other way round |
| SparseTableaus.SparseCrossLookup | tableau.h:475-496 | on sorted inputs, row slot k read at column j is a at the slot's logical row times b at j, and symmetrically for column slots |
| Tableaus.Rows | tableau.h:377 | a plain projection: the number of row lists |
| Tableaus.Cols | tableau.h:378 | a plain projection: the number of column lists |
| Tableaus.New | tableau.h:288-296 | a new tableau has the requested dimensions, reads 0 everywhere and is consistent |
| Tableaus.At | tableau.h:308 | At reads the row list's view and, on a consistent tableau, agrees with the column list's view |
| Tableaus.AddListsLaw | tableau.h:313-324 | on sorted, in-range inputs, adding lists slot by slot keeps them sorted and in range and adds their views |
| Tableaus.Add | tableau.h:313-324 | adding two consistent tableaus of equal dimensions gives a consistent tableau that holds the pointwise sum at every position |
| Tableaus.AddSlotsLaw | tableau.h:326-334 | when the lists and the slot lists are sorted and in range, after the slot loop each list reads as before plus the sum of all slots naming it, so slots that share an index both count |
| Tableaus.AddSparse | tableau.h:326-334 | adding a sparse tableau keeps well-formedness and adds to every row and column the sum of the slots that name it |
| Tableaus.CrossSlotSum | tableau.h:475-496 | the row slots built from a sorted a contribute a(i) times b(j) at position (i, j) |
| Tableaus.AddSparseCross | tableau.h:326-334 | adding the sparse outer product of sorted a and b to a consistent tableau keeps it consistent and adds a(i) times b(j) at every position |
| Tableaus.SetRow | tableau.h:381-384 | SetRow replaces one row list; the other rows and all columns are unchanged |
| Tableaus.SetCol | tableau.h:385-388 | SetCol replaces one column list; the other columns and all rows are unchanged |
| Tableaus.CrossRows | tableau.h:398-405 | after the row loop, on a sorted a, the row at each stored index of a is b scaled by a's value there, and every other row is untouched |
| Tableaus.CrossCols | tableau.h:406-413 | after the column loop, on a sorted b, the column at each stored index of b is a scaled by b's value there, and every other column is untouched |
| Tableaus.CrossRowsForm | tableau.h:397-405 | for a sorted a, on a fresh tableau, the row loop fills exactly the rows a names (b scaled by a's value) and leaves every other row an empty list and the columns untouched |
| Tableaus.CrossColsForm | tableau.h:406-413 | for a sorted b, after the row loop, the column loop fills exactly the columns b names (a scaled by b's value) and leaves every other column an empty list and the rows untouched |
| Tableaus.Cross | tableau.h:394-415 | on sorted a and b, Cross builds a consistent tableau whose entry (i, j) is a(i) times b(j); rows and columns outside a's and b's indices stay empty lists |
| Tableaus.CrossLaw | tableau.h:394-415 | for sorted a and b, a tableau whose rows and columns have the shape Cross gives them is consistent and reads a(i) times b(j) everywhere |
| Tableaus.Scatter | tableau.h:342-345 | the scatter loop succeeds exactly when every list it appends to has room after growth |
| Tableaus.ScatterEffect | tableau.h:342-345 | with distinct target indices, each named list receives exactly one Append and every other list is unchanged |
| Tableaus.PopAllEffect | tableau.h:371-374 | with distinct target indices, each named row receives exactly one Pop and every other row is unchanged |
| Tableaus.AppendRow | tableau.h:339-346 | AppendRow succeeds exactly when every touched column can grow; it installs the list as row r and leaves the other rows alone |
| Tableaus.AppendRowColumns | tableau.h:339-346 | each column named by the new row gains exactly (r, value) at its end; the other columns are unchanged |
| Tableaus.AppendRowConsistent | tableau.h:339-346 | when the replaced row reads 0 and r exceeds every row index already stored in the touched columns, AppendRow keeps the tableau consistent |
| Tableaus.AppendCol | tableau.h:347-354 | AppendCol succeeds exactly when every touched row can grow; it installs the list as column c and leaves the other columns alone |
| Tableaus.AppendColIsTransposedAppendRow | tableau.h:339-354 | AppendCol is AppendRow on the transposed tableau, success included |
| Tableaus.AppendColConsistent | tableau.h:347-354 | when the replaced column reads 0 and c exceeds every column index already stored in the touched rows, AppendCol keeps the tableau consistent |
| Tableaus.AppendExtraCol | tableau.h:356-367 | AppendExtraCol succeeds exactly when every touched row can grow; it keeps the old columns and adds the list as the new last column |
| Tableaus.AppendExtraColRows | tableau.h:356-367 | each row named by the new column receives exactly one Append of (old column count, value); every other row is unchanged |
| Tableaus.AppendExtraColConsistent | tableau.h:356-367 | appending an extra column with sorted, in-range indices keeps a consistent tableau consistent |
| Tableaus.RemoveExtraCol | tableau.h:368-375 | RemoveExtraCol drops the last column and keeps the rest, leaving the row count unchanged; its effect on the rows is stated by RemoveExtraColRows |
| Tableaus.RemoveExtraColRows | tableau.h:368-375 | when the last column is sorted, each row it names receives exactly one Pop of the new column count, and every other row is unchanged |
| Tableaus.AppendThenRemoveExtraCol | tableau.h:356-375 | RemoveExtraCol undoes AppendExtraCol: the columns and every row's entries come back exactly, and consistency comes back with them |

## Left out

- OpenMP parallel loops run sequentially in the model. Iterations that touch distinct
  lists commute, and `Tableaus.AddSlotsLaw` shows what a sequential run of slots that
  share an index gives.
- Memory management is left out: `new`/`delete`, the copy constructor's `memcpy` of the
  whole buffer, the destructors, and leaks.
  - `AppendRow` and `AppendCol` drop the replaced list without freeing it.
  - `AppendRow`, `AppendCol` and `AppendExtraCol` store the caller's `List*` itself
    (tableau.h:341, 349, 359), so ownership of the passed list moves to the tableau. The
    model treats lists as values; changes the caller later makes through its pointer,
    which would reach the stored list but not the other axis, are not modelled.
  - `RemoveExtraCol` leaves the removed column allocated. The model simply drops it from
    the column sequence.
- Floating point is left out. `T` is `int`. The merges in `tableau.h` drop a value only
  when the exact test `!= 0` fails (tableau.h:99, 108, 115, 124, 132, 155), so with `int`
  the test is exact; float rounding, and near-zero sums a float `T` would keep, are not
  modelled. `tableau.h` applies no tolerance; `_IsZeroT` appears only in `tableau_test.cc`.
- The source uses 64-bit integers (`int64_t`). Indices and sizes are unbounded in the
  model, and the model does not add wrap-around.
- Lists.Map: the source's `Map` can change the value type (`List<R>`). The model keeps
  `int -> int`.
- Out-of-range row and column indices, and slot indices outside the tableau, are
  undefined behaviour in the source. In the model they are preconditions.
- SparseTableaus.Blank: the sparse tableau constructor sets the slot count without
  writing any slot. The model fills the slots with a placeholder (logical index -1, empty
  list). `SparseCross` overwrites every slot.
- Storage modes and formats are not modelled because `tableau.h` does not define them.
  - `tableau_test.cc` calls `SPARSE`/`DENSE` list modes, `ROW_ONLY`/`COLUMN_ONLY`
    tableau formats and `SumScaledRows`.
  - `tableau.h` stores every list sparsely and always keeps both axes. The model follows
    `tableau.h`.
- Tableaus.Add: `Tableau::Add` asserts that the two tableaus have equal dimensions and
  aborts otherwise. The model turns those asserts into a precondition instead of an
  error result.
- Tableaus.AppendRowConsistent / Tableaus.AppendColConsistent: consistency is proved
  under two premises, and the model states only `AppendRowColumns` for other uses.
  - r (or c) exceeds the indices already stored in the touched lists. The source never
    re-sorts, so other uses can leave a column unsorted.
  - The replaced row (or column) reads 0 everywhere. `AppendRow` (tableau.h:341-345)
    never removes the old row's entries from the columns, so a non-empty old row leaves
    the columns reading its values while the row reads the new list.
- The benchmark driver and the test-only helpers are outside this model.

## Findings

| source | as written | input that shows it | evidently intended | confidence | as-written member | corrected member |
|---|---|---|---|---|---|---|
| tableau.h:147 | `Mul` sets `capacity_ = std::min(Size(), other->Size())`, which is 0 when either list is empty; a later `Append` doubles 0 to 0 and writes `index_[0]` past a zero-length buffer | any list multiplied by an empty list, then `Append(0, 1)` | capacity at least one slot, as every constructor guarantees, so the list stays appendable | not executed | ListArith.Mul, ListArith.MulByEmptyThenAppendOverflows | ListArith.MulFixed |

Nothing else in the model calls `Mul`. `MulFixed` is the corrected definition, and it is
proved to keep `Mul`'s entries with a capacity of at least one.

=== FILE: list_arith.dfy ===
/**
 The merge arithmetic of `List<T>` in tableau.h: `Add` (sorted union that drops zero
 results), `Mul` (sorted intersection) and `Dot` (intersection accumulate).

 Each merge is given twice: as a recursive function that consumes one head per call,
 which the lemmas reason about, and as the source's loops, proved to compute the same
 sequence or number.
 */
module ListArith {
  import opened Lists

  /** The entry as it reaches the merged buffers: dropped when its value is 0. */
  function Keep(e: Entry): seq<Entry>
  {
    if e.value != 0 then [e] else []
  }

  lemma LookupKeep(e: Entry, rest: seq<Entry>, i: int)
    ensures Lookup(Keep(e) + rest, i) == if e.index == i && e.value != 0 then e.value else Lookup(rest, i)
  {
    if e.value != 0 {
      assert (Keep(e) + rest)[1..] == rest;
    } else {
      assert Keep(e) + rest == rest;
    }
  }

  lemma AboveKeep(e: Entry, rest: seq<Entry>, h: int)
    requires e.index > h && Above(rest, h)
    ensures Above(Keep(e) + rest, h)
  {
  }

  lemma SortedKeep(e: Entry, rest: seq<Entry>)
    requires Sorted(rest) && Above(rest, e.index)
    ensures Sorted(Keep(e) + rest)
  {
  }

  lemma IndicesKeep(e: Entry, rest: seq<Entry>)
    ensures Indices(Keep(e) + rest) <= {e.index} + Indices(rest)
  {
    var s := Keep(e) + rest;
    forall x | x in Indices(s) ensures x in {e.index} + Indices(rest) {
      var k :| 0 <= k < |s| && s[k].index == x;
      if k >= |Keep(e)| {
        assert rest[k - |Keep(e)|].index == x;
      }
    }
  }

  // ---------------------------------------------------------------------------
  // Add: sorted union, zero results dropped
  // ---------------------------------------------------------------------------

  /**
   The merge of `Add`: equal heads are summed, the smaller head is copied through,
   and whichever list is exhausted lets the other one's tail through; every emitted
   value that is 0 is dropped.
   */
  function MergeAdd(a: seq<Entry>, b: seq<Entry>): seq<Entry>
    decreases |a| + |b|
  {
    if |a| == 0 && |b| == 0 then []
    else if |b| == 0 || (|a| > 0 && a[0].index < b[0].index) then
      Keep(a[0]) + MergeAdd(a[1..], b)
    else if |a| == 0 || b[0].index < a[0].index then
      Keep(b[0]) + MergeAdd(a, b[1..])
    else
      Keep(Entry(a[0].index, a[0].value + b[0].value)) + MergeAdd(a[1..], b[1..])
  }

  lemma {:induction false} MergeAddShape(a: seq<Entry>, b: seq<Entry>)
    ensures |MergeAdd(a, b)| <= |a| + |b|
    ensures NoZeros(MergeAdd(a, b))
    ensures Indices(MergeAdd(a, b)) <= Indices(a) + Indices(b)
    decreases |a| + |b|
  {
    if |a| == 0 && |b| == 0 {
    } else if |b| == 0 || (|a| > 0 && a[0].index < b[0].index) {
      MergeAddShape(a[1..], b);
      IndicesKeep(a[0], MergeAdd(a[1..], b));
      IndicesTail(a);
    } else if |a| == 0 || b[0].index < a[0].index {
      MergeAddShape(a, b[1..]);
      IndicesKeep(b[0], MergeAdd(a, b[1..]));
      IndicesTail(b);
    } else {
      MergeAddShape(a[1..], b[1..]);
      IndicesKeep(Entry(a[0].index, a[0].value + b[0].value), MergeAdd(a[1..], b[1..]));
      IndicesTail(a);
      IndicesTail(b);
    }
  }

  lemma {:induction false} MergeAddAbove(a: seq<Entry>, b: seq<Entry>, h: int)
    requires Above(a, h) && Above(b, h)
    ensures Above(MergeAdd(a, b), h)
    decreases |a| + |b|
  {
    if |a| == 0 && |b| == 0 {
    } else if |b| == 0 || (|a| > 0 && a[0].index < b[0].index) {
      MergeAddAbove(a[1..], b, h);
      AboveKeep(a[0], MergeAdd(a[1..], b), h);
    } else if |a| == 0 || b[0].index < a[0].index {
      MergeAddAbove(a, b[1..], h);
      AboveKeep(b[0], MergeAdd(a, b[1..]), h);
    } else {
      MergeAddAbove(a[1..], b[1..], h);
      AboveKeep(Entry(a[0].index, a[0].value + b[0].value), MergeAdd(a[1..], b[1..]), h);
    }
  }

  /** The union of two sorted lists is sorted, and its view is the pointwise sum. */
  lemma {:induction false} MergeAddSorted(a: seq<Entry>, b: seq<Entry>, i: int)
    requires Sorted(a) && Sorted(b)
    ensures Sorted(MergeAdd(a, b))
    ensures Lookup(MergeAdd(a, b), i) == Lookup(a, i) + Lookup(b, i)
    decreases |a| + |b|
  {
    if |a| == 0 && |b| == 0 {
    } else if |b| == 0 || (|a| > 0 && a[0].index < b[0].index) {
      var h := a[0].index;
      var rest := MergeAdd(a[1..], b);
      SortedTail(a);
      assert Above(b, h);
      MergeAddSorted(a[1..], b, i);
      MergeAddAbove(a[1..], b, h);
      SortedKeep(a[0], rest);
      LookupKeep(a[0], rest, i);
      if i == h {
        LookupAbove(b, h);
        LookupAbove(rest, h);
      }
    } else if |a| == 0 || b[0].index < a[0].index {
      var h := b[0].index;
      var rest := MergeAdd(a, b[1..]);
      SortedTail(b);
      assert Above(a, h);
      MergeAddSorted(a, b[1..], i);
      MergeAddAbove(a, b[1..], h);
      SortedKeep(b[0], rest);
      LookupKeep(b[0], rest, i);
      if i == h {
        LookupAbove(a, h);
        LookupAbove(rest, h);
      }
    } else {
      var h := a[0].index;
      var e := Entry(h, a[0].value + b[0].value);
      var rest := MergeAdd(a[1..], b[1..]);
      SortedTail(a);
      SortedTail(b);
      MergeAddSorted(a[1..], b[1..], i);
      MergeAddAbove(a[1..], b[1..], h);
      SortedKeep(e, rest);
      LookupKeep(e, rest, i);
      if i == h {
        LookupAbove(rest, h);
      }
    }
  }

  lemma MergeAddLookupAll(a: seq<Entry>, b: seq<Entry>, m: seq<Entry>)
    requires m == MergeAdd(a, b)
    ensures Sorted(a) && Sorted(b) ==> Sorted(m) && forall i :: Lookup(m, i) == Lookup(a, i) + Lookup(b, i)
  {
    if Sorted(a) && Sorted(b) {
      MergeAddSorted(a, b, 0);
      forall i ensures Lookup(m, i) == Lookup(a, i) + Lookup(b, i) {
        MergeAddSorted(a, b, i);
      }
    }
  }

  /**
   `Add(other)`. An empty other returns before anything happens, so the receiver keeps
   any zero values it stores; otherwise the buffers are replaced by the merge, sized
   for both lists.
   */
  function Add(l: List, other: List): (r: List)
    ensures Size(other) == 0 ==> r == l
    ensures Size(other) > 0 ==> NoZeros(r.entries) && r.capacity == Size(l) + Size(other) && Valid(r)
    ensures Indices(r.entries) <= Indices(l.entries) + Indices(other.entries)
    ensures Sorted(l.entries) && Sorted(other.entries) ==>
              Sorted(r.entries)
              && forall i :: Lookup(r.entries, i) == Lookup(l.entries, i) + Lookup(other.entries, i)
  {
    if |other.entries| == 0 then l
    else
      var m := MergeAdd(l.entries, other.entries);
      MergeAddShape(l.entries, other.entries);
      MergeAddLookupAll(l.entries, other.entries, m);
      List(m, |l.entries| + |other.entries|)
  }

  /** The merge from positions left and right emits a's head next. */
  lemma AddStepLeft(a: seq<Entry>, b: seq<Entry>, left: int, right: int)
    requires 0 <= left < |a| && 0 <= right <= |b|
    requires right == |b| || a[left].index < b[right].index
    ensures MergeAdd(a[left..], b[right..]) == Keep(a[left]) + MergeAdd(a[left + 1..], b[right..])
  {
    assert a[left..][1..] == a[left + 1..];
  }

  /** The merge from positions left and right emits b's head next. */
  lemma AddStepRight(a: seq<Entry>, b: seq<Entry>, left: int, right: int)
    requires 0 <= left <= |a| && 0 <= right < |b|
    requires left == |a| || b[right].index < a[left].index
    ensures MergeAdd(a[left..], b[right..]) == Keep(b[right]) + MergeAdd(a[left..], b[right + 1..])
  {
    assert b[right..][1..] == b[right + 1..];
  }

  /** The merge from positions left and right emits the sum of two equal heads next. */
  lemma AddStepBoth(a: seq<Entry>, b: seq<Entry>, left: int, right: int)
    requires 0 <= left < |a| && 0 <= right < |b| && a[left].index == b[right].index
    ensures MergeAdd(a[left..], b[right..]) ==
              Keep(Entry(a[left].index, a[left].value + b[right].value)) + MergeAdd(a[left + 1..], b[right + 1..])
  {
    assert a[left..][1..] == a[left + 1..];
    assert b[right..][1..] == b[right + 1..];
  }

  /** Emitting one entry through Keep extends the output without disturbing what follows. */
  lemma EmitKeep(merged: seq<Entry>, e: Entry, rest: seq<Entry>)
    ensures (merged + Keep(e)) + rest == merged + (Keep(e) + rest)
  {
  }

  /**
   The three loops of `Add` as the source writes them. Each step emits through Keep,
   which appends the entry only when its value is not zero, as the source's guards do.
   */
  method AddMerge(a: seq<Entry>, b: seq<Entry>) returns (merged: seq<Entry>)
    ensures merged == MergeAdd(a, b)
  {
    var left, right := 0, 0;
    merged := [];
    while left < |a| && right < |b|
      invariant 0 <= left <= |a| && 0 <= right <= |b|
      invariant merged + MergeAdd(a[left..], b[right..]) == MergeAdd(a, b)
      decreases |a| - left + |b| - right
    {
      if a[left].index == b[right].index {
        var e := Entry(a[left].index, a[left].value + b[right].value);
        AddStepBoth(a, b, left, right);
        EmitKeep(merged, e, MergeAdd(a[left + 1..], b[right + 1..]));
        merged := merged + Keep(e);
        left, right := left + 1, right + 1;
      } else if a[left].index < b[right].index {
        AddStepLeft(a, b, left, right);
        EmitKeep(merged, a[left], MergeAdd(a[left + 1..], b[right..]));
        merged := merged + Keep(a[left]);
        left := left + 1;
      } else {
        AddStepRight(a, b, left, right);
        EmitKeep(merged, b[right], MergeAdd(a[left..], b[right + 1..]));
        merged := merged + Keep(b[right]);
        right := right + 1;
      }
    }
    if left < |a| {
      merged := DrainLeft(a, b, left, right, merged);
    } else {
      merged := DrainRight(a, b, left, right, merged);
    }
  }

  /** The second loop of `Add`: the other list is used up, the rest of this one is copied through. */
  method DrainLeft(a: seq<Entry>, b: seq<Entry>, left0: int, right: int, merged0: seq<Entry>)
    returns (merged: seq<Entry>)
    requires 0 <= left0 <= |a| && right == |b|
    ensures merged == merged0 + MergeAdd(a[left0..], b[right..])
  {
    var left := left0;
    merged := merged0;
    while left < |a|
      invariant left0 <= left <= |a|
      invariant merged + MergeAdd(a[left..], b[right..]) == merged0 + MergeAdd(a[left0..], b[right..])
      decreases |a| - left
    {
      AddStepLeft(a, b, left, right);
      EmitKeep(merged, a[left], MergeAdd(a[left + 1..], b[right..]));
      merged := merged + Keep(a[left]);
      left := left + 1;
    }
    assert MergeAdd(a[left..], b[right..]) == [];
  }

  /** The third loop of `Add`: this list is used up, the rest of the other one is copied through. */
  method DrainRight(a: seq<Entry>, b: seq<Entry>, left: int, right0: int, merged0: seq<Entry>)
    returns (merged: seq<Entry>)
    requires left == |a| && 0 <= right0 <= |b|
    ensures merged == merged0 + MergeAdd(a[left..], b[right0..])
  {
    var right := right0;
    merged := merged0;
    while right < |b|
      invariant right0 <= right <= |b|
      invariant merged + MergeAdd(a[left..], b[right..]) == merged0 + MergeAdd(a[left..], b[right0..])
      decreases |b| - right
    {
      AddStepRight(a, b, left, right);
      EmitKeep(merged, b[right], MergeAdd(a[left..], b[right + 1..]));
      merged := merged + Keep(b[right]);
      right := right + 1;
    }
    assert MergeAdd(a[left..], b[right..]) == [];
  }

  // ---------------------------------------------------------------------------
  // Mul: sorted intersection
  // ---------------------------------------------------------------------------

  /** The merge of `Mul`: only equal heads produce output, and only a non-zero product. */
  function MergeMul(a: seq<Entry>, b: seq<Entry>): seq<Entry>
    decreases |a| + |b|
  {
    if |a| == 0 || |b| == 0 then []
    else if a[0].index == b[0].index then
      Keep(Entry(a[0].index, a[0].value * b[0].value)) + MergeMul(a[1..], b[1..])
    else if a[0].index < b[0].index then MergeMul(a[1..], b)
    else MergeMul(a, b[1..])
  }

  lemma {:induction false} MergeMulShape(a: seq<Entry>, b: seq<Entry>)
    ensures |MergeMul(a, b)| <= |a| && |MergeMul(a, b)| <= |b|
    ensures NoZeros(MergeMul(a, b))
    ensures Indices(MergeMul(a, b)) <= Indices(a) * Indices(b)
    decreases |a| + |b|
  {
    if |a| == 0 || |b| == 0 {
    } else if a[0].index == b[0].index {
      MergeMulShape(a[1..], b[1..]);
      IndicesKeep(Entry(a[0].index, a[0].value * b[0].value), MergeMul(a[1..], b[1..]));
      IndicesTail(a);
      IndicesTail(b);
    } else if a[0].index < b[0].index {
      MergeMulShape(a[1..], b);
      IndicesTail(a);
    } else {
      MergeMulShape(a, b[1..]);
      IndicesTail(b);
    }
  }

  lemma {:induction false} MergeMulAbove(a: seq<Entry>, b: seq<Entry>, h: int)
    requires Above(a, h)
    ensures Above(MergeMul(a, b), h)
    decreases |a| + |b|
  {
    if |a| == 0 || |b| == 0 {
    } else if a[0].index == b[0].index {
      MergeMulAbove(a[1..], b[1..], h);
      AboveKeep(Entry(a[0].index, a[0].value * b[0].value), MergeMul(a[1..], b[1..]), h);
    } else if a[0].index < b[0].index {
      MergeMulAbove(a[1..], b, h);
    } else {
      MergeMulAbove(a, b[1..], h);
    }
  }

  /** The intersection of two sorted lists is sorted, and its view is the pointwise product. */
  lemma {:induction false} MergeMulSorted(a: seq<Entry>, b: seq<Entry>, i: int)
    requires Sorted(a) && Sorted(b)
    ensures Sorted(MergeMul(a, b))
    ensures Lookup(MergeMul(a, b), i) == Lookup(a, i) * Lookup(b, i)
    decreases |a| + |b|
  {
    if |a| == 0 || |b| == 0 {
    } else if a[0].index == b[0].index {
      var h := a[0].index;
      var e := Entry(h, a[0].value * b[0].value);
      var rest := MergeMul(a[1..], b[1..]);
      SortedTail(a);
      SortedTail(b);
      MergeMulSorted(a[1..], b[1..], i);
      MergeMulAbove(a[1..], b[1..], h);
      SortedKeep(e, rest);
      LookupKeep(e, rest, i);
      if i == h {
        LookupAbove(rest, h);
      }
    } else if a[0].index < b[0].index {
      var h := a[0].index;
      SortedTail(a);
      MergeMulSorted(a[1..], b, i);
      if i == h {
        assert Above(b, h);
        LookupAbove(b, h);
        MergeMulAbove(a[1..], b, h);
        LookupAbove(MergeMul(a[1..], b), h);
      }
    } else {
      var h := b[0].index;
      SortedTail(b);
      MergeMulSorted(a, b[1..], i);
      if i == h {
        assert Above(a, h);
        LookupAbove(a, h);
        MergeMulAbove(a, b[1..], h);
        LookupAbove(MergeMul(a, b[1..]), h);
      }
    }
  }

  lemma MergeMulLookupAll(a: seq<Entry>, b: seq<Entry>, m: seq<Entry>)
    requires m == MergeMul(a, b)
    ensures Sorted(a) && Sorted(b) ==> Sorted(m) && forall i :: Lookup(m, i) == Lookup(a, i) * Lookup(b, i)
  {
    if Sorted(a) && Sorted(b) {
      MergeMulSorted(a, b, 0);
      forall i ensures Lookup(m, i) == Lookup(a, i) * Lookup(b, i) {
        MergeMulSorted(a, b, i);
      }
    }
  }

  function Min(x: int, y: int): int
  {
    if x < y then x else y
  }

  /** The entries and facts both versions of `Mul` share; only the capacity differs. */
  function MulEntries(l: List, other: List): (m: seq<Entry>)
    ensures |m| <= Size(l) && |m| <= Size(other) && NoZeros(m)
    ensures Indices(m) <= Indices(l.entries) * Indices(other.entries)
    ensures Sorted(l.entries) && Sorted(other.entries) ==>
              Sorted(m) && forall i :: Lookup(m, i) == Lookup(l.entries, i) * Lookup(other.entries, i)
  {
    var m := MergeMul(l.entries, other.entries);
    MergeMulShape(l.entries, other.entries);
    MergeMulLookupAll(l.entries, other.entries, m);
    m
  }

  /**
   `Mul(other)` as written: the new buffers get min(Size(), other->Size()) slots,
   which is 0 whenever either list is empty.
   */
  function Mul(l: List, other: List): (r: List)
    ensures r.capacity == Min(Size(l), Size(other)) && Valid(r)
    ensures Size(r) <= Size(l) && Size(r) <= Size(other) && NoZeros(r.entries)
    ensures Indices(r.entries) <= Indices(l.entries) * Indices(other.entries)
    ensures Sorted(l.entries) && Sorted(other.entries) ==>
              Sorted(r.entries)
              && forall i :: Lookup(r.entries, i) == Lookup(l.entries, i) * Lookup(other.entries, i)
  {
    List(MulEntries(l, other), Min(|l.entries|, |other.entries|))
  }

  /** Multiplying by an empty list leaves a list that the next Append writes past. */
  lemma MulByEmptyThenAppendOverflows(l: List, other: List, i: int, v: int)
    requires Size(other) == 0
    ensures Mul(l, other).capacity == 0
    ensures Append(Mul(l, other), i, v).None?
  {
  }

  /** `Mul` with the buffers sized as the constructor sizes them: never below one slot. */
  function MulFixed(l: List, other: List): (r: List)
    ensures r.entries == Mul(l, other).entries
    ensures r.capacity >= 1 && Valid(r)
    ensures forall i, v :: Append(r, i, v).Some?
  {
    var c := Min(|l.entries|, |other.entries|);
    List(MulEntries(l, other), if c < 1 then 1 else c)
  }

  /** The intersection loop of `Mul` as the source writes it. */
  method MulMerge(a: seq<Entry>, b: seq<Entry>) returns (merged: seq<Entry>)
    ensures merged == MergeMul(a, b)
  {
    var left, right := 0, 0;
    merged := [];
    while left < |a| && right < |b|
      invariant 0 <= left <= |a| && 0 <= right <= |b|
      invariant merged + MergeMul(a[left..], b[right..]) == MergeMul(a, b)
      decreases |a| - left + |b| - right
    {
      assert a[left..][1..] == a[left + 1..];
      assert b[right..][1..] == b[right + 1..];
      if a[left].index == b[right].index {
        var e := Entry(a[left].index, a[left].value * b[right].value);
        assert MergeMul(a[left..], b[right..]) == Keep(e) + MergeMul(a[left + 1..], b[right + 1..]);
        if e.value != 0 {
          merged := merged + [e];
        }
        left, right := left + 1, right + 1;
      } else if a[left].index < b[right].index {
        left := left + 1;
      } else {
        right := right + 1;
      }
    }
    assert MergeMul(a[left..], b[right..]) == [];
  }

  // ---------------------------------------------------------------------------
  // Dot: intersection accumulate
  // ---------------------------------------------------------------------------

  /** The walk of `Dot`: products of equal heads are summed, the smaller head is skipped. */
  function DotMerge(a: seq<Entry>, b: seq<Entry>): int
    decreases |a| + |b|
  {
    if |a| == 0 || |b| == 0 then 0
    else if a[0].index == b[0].index then a[0].value * b[0].value + DotMerge(a[1..], b[1..])
    else if a[0].index < b[0].index then DotMerge(a[1..], b)
    else DotMerge(a, b[1..])
  }

  function SumValues(s: seq<Entry>): int
  {
    if |s| == 0 then 0 else s[0].value + SumValues(s[1..])
  }

  /** The reference dot product: each stored value of a times b's view at its index. */
  function ScatterDot(a: seq<Entry>, b: seq<Entry>): int
  {
    if |a| == 0 then 0 else a[0].value * Lookup(b, a[0].index) + ScatterDot(a[1..], b)
  }

  lemma {:induction false} SumValuesKeep(e: Entry, rest: seq<Entry>)
    ensures SumValues(Keep(e) + rest) == e.value + SumValues(rest)
  {
    if e.value != 0 {
      assert (Keep(e) + rest)[1..] == rest;
    } else {
      assert Keep(e) + rest == rest;
    }
  }

  /** The dot product is the sum of the values Mul would keep. */
  lemma {:induction false} DotIsSumOfMul(a: seq<Entry>, b: seq<Entry>)
    ensures DotMerge(a, b) == SumValues(MergeMul(a, b))
    decreases |a| + |b|
  {
    if |a| == 0 || |b| == 0 {
    } else if a[0].index == b[0].index {
      DotIsSumOfMul(a[1..], b[1..]);
      SumValuesKeep(Entry(a[0].index, a[0].value * b[0].value), MergeMul(a[1..], b[1..]));
    } else if a[0].index < b[0].index {
      DotIsSumOfMul(a[1..], b);
    } else {
      DotIsSumOfMul(a, b[1..]);
    }
  }

  /** The walk is symmetric in its arguments, sorted or not. */
  lemma {:induction false} DotMergeSymmetric(a: seq<Entry>, b: seq<Entry>)
    ensures DotMerge(a, b) == DotMerge(b, a)
    decreases |a| + |b|
  {
    if |a| == 0 || |b| == 0 {
    } else if a[0].index == b[0].index {
      DotMergeSymmetric(a[1..], b[1..]);
    } else if a[0].index < b[0].index {
      DotMergeSymmetric(a[1..], b);
    } else {
      DotMergeSymmetric(a, b[1..]);
    }
  }

  lemma {:induction false} ScatterDotEmpty(a: seq<Entry>)
    ensures ScatterDot(a, []) == 0
  {
    if |a| > 0 {
      ScatterDotEmpty(a[1..]);
    }
  }

  /** b's head is invisible to entries of a that all lie above it. */
  lemma {:induction false} ScatterDotSkip(a: seq<Entry>, b: seq<Entry>)
    requires |b| > 0 && Above(a, b[0].index)
    ensures ScatterDot(a, b) == ScatterDot(a, b[1..])
  {
    if |a| > 0 {
      ScatterDotSkip(a[1..], b);
    }
  }

  /** On sorted lists the walk computes the reference dot product. */
  lemma {:induction false} DotMergeIsScatterDot(a: seq<Entry>, b: seq<Entry>)
    ensures Sorted(a) && Sorted(b) ==> DotMerge(a, b) == ScatterDot(a, b)
    decreases |a| + |b|
  {
    if !(Sorted(a) && Sorted(b)) || |a| == 0 {
    } else if |b| == 0 {
      ScatterDotEmpty(a);
    } else if a[0].index == b[0].index {
      SortedTail(a);
      SortedTail(b);
      DotMergeIsScatterDot(a[1..], b[1..]);
      ScatterDotSkip(a[1..], b);
    } else if a[0].index < b[0].index {
      SortedTail(a);
      assert Above(b, a[0].index);
      LookupAbove(b, a[0].index);
      DotMergeIsScatterDot(a[1..], b);
    } else {
      SortedTail(b);
      assert Above(a, b[0].index);
      DotMergeIsScatterDot(a, b[1..]);
      ScatterDotSkip(a, b);
    }
  }

  /**
   `Dot(other)`: the sum, over the indices stored in both lists, of the products;
   on sorted lists, the sum over this list's entries of value times other's view.
   */
  function Dot(l: List, other: List): (r: int)
    ensures r == SumValues(MergeMul(l.entries, other.entries))
    ensures Sorted(l.entries) && Sorted(other.entries) ==> r == ScatterDot(l.entries, other.entries)
  {
    DotIsSumOfMul(l.entries, other.entries);
    DotMergeIsScatterDot(l.entries, other.entries);
    DotMerge(l.entries, other.entries)
  }

  lemma DotSymmetric(l: List, other: List)
    ensures Dot(l, other) == Dot(other, l)
  {
    DotMergeSymmetric(l.entries, other.entries);
  }

  /** No entry of a meets a stored index of b: every term of the reference sum vanishes. */
  lemma {:induction false} ScatterDotDisjoint(a: seq<Entry>, b: seq<Entry>)
    requires Indices(a) !! Indices(b)
    ensures ScatterDot(a, b) == 0
  {
    if |a| > 0 {
      IndicesTail(a);
      LookupMissing(b, a[0].index);
      ScatterDotDisjoint(a[1..], b);
    }
  }

  /** Sorted lists with no index in common are orthogonal. */
  lemma DotDisjoint(l: List, other: List)
    requires Sorted(l.entries) && Sorted(other.entries)
    requires Indices(l.entries) !! Indices(other.entries)
    ensures Dot(l, other) == 0
  {
    ScatterDotDisjoint(l.entries, other.entries);
  }

  /** The loop of `Dot` as the source writes it. */
  method DotLoop(a: seq<Entry>, b: seq<Entry>) returns (product: int)
    ensures product == DotMerge(a, b)
  {
    var left, right := 0, 0;
    product := 0;
    while left < |a| && right < |b|
      invariant 0 <= left <= |a| && 0 <= right <= |b|
      invariant product + DotMerge(a[left..], b[right..]) == DotMerge(a, b)
      decreases |a| - left + |b| - right
    {
      assert a[left..][1..] == a[left + 1..];
      assert b[right..][1..] == b[right + 1..];
      if a[left].index == b[right].index {
        product := product + a[left].value * b[right].value;
        left, right := left + 1, right + 1;
      } else if a[left].index < b[right].index {
        left := left + 1;
      } else {
        right := right + 1;
      }
    }
  }
}

=== FILE: lists.dfy ===
/**
 The sorted sparse vector `List<T>` of tableau.h, with the scalar type fixed to `int`.

 A list owns two parallel buffers, `index_` and `data_`, of `capacity_` slots of which
 the first `size_` are live. The model zips the live prefix into one sequence of
 entries and keeps the capacity as a plain number, so that the growth rule of
 `Append` can be checked. Every read of the list goes through `Lookup`, the total
 function "index -> value, 0 when nothing is stored there".
 */
module Lists {
  import opened Wrappers

  /** Slot p of the two buffers: `index_[p]` and `data_[p]`. */
  datatype Entry = Entry(index: int, value: int)

  datatype List = List(entries: seq<Entry>, capacity: nat)

  /** Index handed to `Pop` when the caller does not name the expected last index. */
  const NoExpectedIndex: int := -1

  /** `Size()`: the number of live entries. */
  function Size(l: List): (n: nat)
    ensures n == |l.entries|
  {
    |l.entries|
  }

  /** The live prefix fits in the allocation; every operation of the library keeps this. */
  predicate Valid(l: List)
  {
    |l.entries| <= l.capacity
  }

  /** Strictly increasing indices: the caller's obligation that binary search relies on. */
  predicate Sorted(s: seq<Entry>)
  {
    forall j, k :: 0 <= j < k < |s| ==> s[j].index < s[k].index
  }

  predicate NoZeros(s: seq<Entry>)
  {
    forall k :: 0 <= k < |s| ==> s[k].value != 0
  }

  /** Every stored index exceeds h. */
  predicate Above(s: seq<Entry>, h: int)
  {
    forall k :: 0 <= k < |s| ==> s[k].index > h
  }

  /** Every stored index is below h. */
  predicate Below(s: seq<Entry>, h: int)
  {
    forall k :: 0 <= k < |s| ==> s[k].index < h
  }

  function Indices(s: seq<Entry>): set<int>
  {
    set k | 0 <= k < |s| :: s[k].index
  }

  /** The abstract value at index i: the first entry stored there, 0 when there is none. */
  function Lookup(s: seq<Entry>, i: int): int
  {
    if |s| == 0 then 0
    else if s[0].index == i then s[0].value
    else Lookup(s[1..], i)
  }

  // ---------------------------------------------------------------------------
  // Facts about the abstract view
  // ---------------------------------------------------------------------------

  lemma SortedTail(s: seq<Entry>)
    requires Sorted(s) && |s| > 0
    ensures Sorted(s[1..]) && Above(s[1..], s[0].index)
  {
  }

  lemma {:induction false} LookupAbove(s: seq<Entry>, h: int)
    requires Above(s, h)
    ensures Lookup(s, h) == 0
  {
    if |s| > 0 {
      LookupAbove(s[1..], h);
    }
  }

  lemma {:induction false} LookupMissing(s: seq<Entry>, i: int)
    requires i !in Indices(s)
    ensures Lookup(s, i) == 0
  {
    if |s| > 0 {
      assert s[0].index in Indices(s);
      forall k | 0 <= k < |s[1..]|
        ensures s[1..][k].index != i
      {
        assert s[1..][k].index == s[k + 1].index;
        assert s[k + 1].index in Indices(s);
      }
      LookupMissing(s[1..], i);
    }
  }

  lemma IndicesTail(s: seq<Entry>)
    requires |s| > 0
    ensures Indices(s) == {s[0].index} + Indices(s[1..])
  {
    forall x | x in Indices(s) ensures x in {s[0].index} + Indices(s[1..]) {
      var k :| 0 <= k < |s| && s[k].index == x;
      if k > 0 {
        assert s[1..][k - 1].index == x;
      }
    }
    forall x | x in Indices(s[1..]) ensures x in Indices(s) {
      var k :| 0 <= k < |s[1..]| && s[1..][k].index == x;
      assert s[k + 1].index == x;
    }
  }

  /** The head's index is not repeated in the tail of a sorted sequence, which stays sorted. */
  lemma HeadApart(s: seq<Entry>)
    requires |s| > 0
    ensures Sorted(s) ==> Sorted(s[1..]) && s[0].index !in Indices(s[1..])
  {
    if Sorted(s) {
      SortedTail(s);
      assert forall i :: i in Indices(s[1..]) ==> i != s[0].index;
    }
  }

  /** In a sorted list the first entry at an index is the only one. */
  lemma {:induction false} LookupAt(s: seq<Entry>, p: int)
    requires Sorted(s) && 0 <= p < |s|
    ensures Lookup(s, s[p].index) == s[p].value
  {
    if p > 0 {
      assert s[0].index < s[p].index;
      LookupAt(s[1..], p - 1);
    }
  }

  lemma {:induction false} LookupStored(s: seq<Entry>, i: int)
    requires Lookup(s, i) != 0
    ensures i in Indices(s)
  {
    if s[0].index != i {
      LookupStored(s[1..], i);
      var k :| 0 <= k < |s[1..]| && s[1..][k].index == i;
      assert s[k + 1].index == i;
    }
  }

  /** Appending at the end leaves earlier lookups alone and exposes the new entry elsewhere. */
  lemma {:induction false} LookupSnoc(s: seq<Entry>, e: Entry, i: int)
    ensures Lookup(s + [e], i) ==
              if i in Indices(s) then Lookup(s, i)
              else if e.index == i then e.value
              else 0
  {
    if |s| == 0 {
      assert s + [e] == [e];
    } else {
      assert (s + [e])[1..] == s[1..] + [e];
      LookupSnoc(s[1..], e, i);
      if s[0].index != i {
        if i in Indices(s) {
          var k :| 0 <= k < |s| && s[k].index == i;
          assert s[1..][k - 1].index == i;
        } else {
          forall k | 0 <= k < |s[1..]| ensures s[1..][k].index != i {
            assert s[1..][k] == s[k + 1];
          }
        }
      } else {
        assert s[0].index in Indices(s);
      }
    }
  }

  /** Rewriting the value of one position of a sorted list changes the view at that index only. */
  lemma {:induction false} LookupUpdate(s: seq<Entry>, p: int, v: int, j: int)
    requires Sorted(s) && 0 <= p < |s|
    ensures Lookup(s[p := Entry(s[p].index, v)], j) ==
              if j == s[p].index then v else Lookup(s, j)
  {
    var s' := s[p := Entry(s[p].index, v)];
    if p == 0 {
      assert s'[1..] == s[1..];
      if j == s[0].index {
      } else {
      }
    } else {
      assert s'[0] == s[0];
      assert s'[1..] == s[1..][p - 1 := Entry(s[p].index, v)];
      assert s[0].index < s[p].index;
      LookupUpdate(s[1..], p - 1, v, j);
    }
  }

  // ---------------------------------------------------------------------------
  // Construction
  // ---------------------------------------------------------------------------

  predicate IsPowerOfTwo(n: int)
    decreases n
  {
    n == 1 || (n > 1 && n % 2 == 0 && IsPowerOfTwo(n / 2))
  }

  /** The constructor's loop: double c until it reaches size. */
  function GrowCapacity(c: nat, size: int): (r: nat)
    requires c >= 1 && IsPowerOfTwo(c)
    ensures r >= c && r >= size && IsPowerOfTwo(r)
    ensures r == c || r / 2 < size
    decreases size - c
  {
    if c < size then
      assert IsPowerOfTwo(2 * c) by { assert (2 * c) / 2 == c; }
      GrowCapacity(2 * c, size)
    else c
  }

  /** The capacity a new list of requested size gets: the least power of two that holds size, at least 1. */
  function InitialCapacity(size: int): (r: nat)
    ensures r >= 1 && r >= size && IsPowerOfTwo(r)
    ensures r == 1 || r / 2 < size
  {
    GrowCapacity(1, size)
  }

  /** `List(size)`: an empty list whose buffers can already hold size entries. */
  function New(size: int): (l: List)
    ensures Size(l) == 0 && Valid(l) && l.capacity >= 1 && l.capacity >= size
    ensures forall i :: Lookup(l.entries, i) == 0
  {
    List([], InitialCapacity(size))
  }

  /** `Clear`: forget the entries, keep the buffers. */
  function Clear(l: List): (r: List)
    ensures Size(r) == 0 && r.capacity == l.capacity
    ensures Valid(r)
    ensures forall i :: Lookup(r.entries, i) == 0
  {
    List([], l.capacity)
  }

  // ---------------------------------------------------------------------------
  // Binary search, At and Set
  // ---------------------------------------------------------------------------

  /**
   The search loop of `BinarySearch` between `lower` and `upper` inclusive, one
   halving per call. `(lower + upper) / 2` never sees a negative dividend, so
   Dafny's division agrees with C++'s.
   */
  function SearchRange(s: seq<Entry>, key: int, lower: int, upper: int): (p: int)
    requires 0 <= lower && upper < |s|
    ensures p == -1 || (lower <= p <= upper && s[p].index == key)
    ensures Sorted(s) && (exists k :: lower <= k <= upper && s[k].index == key) ==> p != -1
    decreases upper - lower + 1
  {
    if lower > upper then -1
    else
      var middle := (lower + upper) / 2;
      if s[middle].index == key then middle
      else if s[middle].index > key then
        SearchRange(s, key, lower, middle - 1)
      else
        SearchRange(s, key, middle + 1, upper)
  }

  /** `BinarySearch(index)`: a position holding key, or -1. */
  function Find(s: seq<Entry>, key: int): (p: int)
    ensures p == -1 || (0 <= p < |s| && s[p].index == key)
    ensures Sorted(s) ==> (p == -1 <==> key !in Indices(s))
  {
    SearchRange(s, key, 0, |s| - 1)
  }

  /** The loop of `BinarySearch` as the source writes it. */
  method BinarySearch(s: seq<Entry>, key: int) returns (p: int)
    ensures p == Find(s, key)
    ensures p >= 0 ==> p < |s| && s[p].index == key
    ensures Sorted(s) ==> (p == -1 <==> key !in Indices(s))
  {
    var lower, upper := 0, |s| - 1;
    while lower <= upper
      invariant 0 <= lower && upper < |s|
      invariant SearchRange(s, key, lower, upper) == Find(s, key)
      decreases upper - lower + 1
    {
      var middle := (lower + upper) / 2;
      if s[middle].index == key {
        return middle;
      }
      if s[middle].index > key {
        upper := middle - 1;
      } else {
        lower := middle + 1;
      }
    }
    return -1;
  }

  /** On a sorted list the search agrees with the view: the value at the hit, 0 on a miss. */
  lemma FindLookup(s: seq<Entry>, key: int)
    ensures Sorted(s) ==> Lookup(s, key) == if Find(s, key) >= 0 then s[Find(s, key)].value else 0
  {
    if Sorted(s) {
      var p := Find(s, key);
      if p >= 0 {
        LookupAt(s, p);
      } else {
        LookupMissing(s, key);
      }
    }
  }

  /** `At(index)`: the stored value found by binary search, 0 on a miss. */
  function At(l: List, i: int): (r: int)
    ensures Sorted(l.entries) ==> r == Lookup(l.entries, i)
    ensures r != 0 ==> i in Indices(l.entries)
  {
    var p := Find(l.entries, i);
    FindLookup(l.entries, i);
    if p >= 0 then
      assert l.entries[p].index in Indices(l.entries);
      l.entries[p].value
    else 0
  }

  lemma LookupUpdateAll(s: seq<Entry>, p: int, v: int, s': seq<Entry>)
    requires 0 <= p < |s| && s' == s[p := Entry(s[p].index, v)]
    ensures Sorted(s) ==> forall j :: Lookup(s', j) == if j == s[p].index then v else Lookup(s, j)
  {
    if Sorted(s) {
      forall j
        ensures Lookup(s', j) == if j == s[p].index then v else Lookup(s, j)
      {
        LookupUpdate(s, p, v, j);
      }
    }
  }

  /** `Set(index, value)`: overwrite the value at a stored index; a miss changes nothing. */
  function Set(l: List, i: int, v: int): (r: List)
    ensures Size(r) == Size(l) && r.capacity == l.capacity
    ensures forall k :: 0 <= k < Size(l) ==> r.entries[k].index == l.entries[k].index
    ensures forall k :: 0 <= k < Size(l) && l.entries[k].index != i ==> r.entries[k] == l.entries[k]
    ensures i !in Indices(l.entries) ==> r == l
    ensures Sorted(l.entries) ==>
              forall j :: Lookup(r.entries, j) ==
                            if j == i && i in Indices(l.entries) then v else Lookup(l.entries, j)
  {
    var p := Find(l.entries, i);
    if p >= 0 then
      assert i in Indices(l.entries) by { assert l.entries[p].index == i; }
      LookupUpdateAll(l.entries, p, v, l.entries[p := Entry(i, v)]);
      List(l.entries[p := Entry(i, v)], l.capacity)
    else
      l
  }

  // ---------------------------------------------------------------------------
  // Append, Pop
  // ---------------------------------------------------------------------------

  /** The capacity after `Append`'s growth step: doubled exactly when the live prefix fills the buffers. */
  function GrownCapacity(l: List): nat
  {
    if |l.entries| >= l.capacity then 2 * l.capacity else l.capacity
  }

  /** Whether `Append` writes slot `size_` inside the (possibly regrown) buffers. */
  predicate CanAppend(l: List)
  {
    |l.entries| < GrownCapacity(l)
  }

  /**
   `Append(index, value)`: add an entry after the last one, doubling the buffers when
   full. None stands for the write past the end of the buffers that happens when the
   capacity is 0, because doubling 0 leaves it 0.
   */
  function Append(l: List, i: int, v: int): (r: Option<List>)
    ensures Valid(l) ==> (r.Some? <==> l.capacity > 0)
    ensures r.Some? ==> Size(r.value) == Size(l) + 1
                        && r.value.entries[..Size(l)] == l.entries
                        && r.value.entries[Size(l)] == Entry(i, v)
    ensures r.Some? && Valid(l) ==>
              Valid(r.value)
              && r.value.capacity == (if Size(l) == l.capacity then 2 * l.capacity else l.capacity)
    ensures r.Some? ==> CanAppend(r.value)
    ensures r.Some? && Sorted(l.entries) ==>
              (Sorted(r.value.entries) <==> (Size(l) == 0 || l.entries[Size(l) - 1].index < i))
  {
    var c := GrownCapacity(l);
    if |l.entries| >= c then None
    else
      var s := l.entries + [Entry(i, v)];
      assert s[..|l.entries|] == l.entries;
      Some(List(s, c))
  }

  /** What the new entry does to the view: earlier indices keep their values. */
  lemma AppendLookup(l: List, i: int, v: int, j: int)
    requires Append(l, i, v).Some?
    ensures Lookup(Append(l, i, v).value.entries, j) ==
              if j in Indices(l.entries) then Lookup(l.entries, j)
              else if j == i then v
              else 0
  {
    assert Append(l, i, v).value.entries == l.entries + [Entry(i, v)];
    LookupSnoc(l.entries, Entry(i, v), j);
  }

  /**
   `Pop(last_index)`: drop the last entry, but only when it sits at last_index; a
   last_index of 0 or below (the default is -1) drops it unconditionally.
   */
  function Pop(l: List, lastIndex: int): (r: List)
    ensures r.capacity == l.capacity
    ensures Size(l) == 0 ==> r == l
    ensures Size(l) > 0 && (lastIndex <= 0 || l.entries[Size(l) - 1].index == lastIndex) ==>
              r.entries == l.entries[..Size(l) - 1]
    ensures Size(l) > 0 && lastIndex > 0 && l.entries[Size(l) - 1].index != lastIndex ==> r == l
    ensures Valid(l) ==> Valid(r)
  {
    if |l.entries| > 0 then
      if lastIndex > 0 && l.entries[|l.entries| - 1].index != lastIndex then l
      else List(l.entries[..|l.entries| - 1], l.capacity)
    else l
  }

  /** Pop is the inverse of Append when it names the appended index. */
  lemma PopAfterAppend(l: List, i: int, v: int)
    requires Append(l, i, v).Some?
    ensures Pop(Append(l, i, v).value, i).entries == l.entries
    ensures Pop(Append(l, i, v).value, i).capacity == GrownCapacity(l)
  {
  }

  /** Pop(0) does not look at the last index at all: it behaves like the default argument. */
  lemma PopZeroIsUnconditional(l: List)
    requires Size(l) > 0 && l.entries[Size(l) - 1].index != 0
    ensures Pop(l, 0).entries == l.entries[..Size(l) - 1]
    ensures Size(Pop(l, 0)) == Size(l) - 1
    ensures Pop(l, 0) == Pop(l, NoExpectedIndex)
  {
  }

  // ---------------------------------------------------------------------------
  // Scale and Map
  // ---------------------------------------------------------------------------

  /** The entries with every stored value passed through f, indices untouched. */
  function MapValues(s: seq<Entry>, f: int -> int): (r: seq<Entry>)
    ensures |r| == |s|
    ensures forall k :: 0 <= k < |s| ==> r[k].index == s[k].index && r[k].value == f(s[k].value)
  {
    if |s| == 0 then []
    else [Entry(s[0].index, f(s[0].value))] + MapValues(s[1..], f)
  }

  lemma {:induction false} LookupMapValues(s: seq<Entry>, f: int -> int, j: int)
    ensures Lookup(MapValues(s, f), j) == if j in Indices(s) then f(Lookup(s, j)) else 0
  {
    if |s| > 0 {
      LookupMapValues(s[1..], f, j);
      assert MapValues(s, f)[1..] == MapValues(s[1..], f);
      if s[0].index == j {
        assert j in Indices(s);
      } else if j in Indices(s) {
        var k :| 0 <= k < |s| && s[k].index == j;
        assert s[1..][k - 1].index == j;
      } else {
        forall k | 0 <= k < |s[1..]| ensures s[1..][k].index != j {
          assert s[1..][k] == s[k + 1];
        }
      }
    } else {
      assert j !in Indices(s);
    }
  }

  /** `Scale(scale)`: multiply every stored value; stored entries survive even a zero factor. */
  function Scale(l: List, k: int): (r: List)
    ensures Size(r) == Size(l) && r.capacity == l.capacity
    ensures forall p :: 0 <= p < Size(l) ==>
              r.entries[p].index == l.entries[p].index && r.entries[p].value == k * l.entries[p].value
  {
    List(MapValues(l.entries, x => k * x), l.capacity)
  }

  /** Scaling scales the whole view, sorted or not. */
  lemma ScaleLookup(l: List, k: int)
    ensures forall j :: Lookup(Scale(l, k).entries, j) == k * Lookup(l.entries, j)
  {
    forall j
      ensures Lookup(Scale(l, k).entries, j) == k * Lookup(l.entries, j)
    {
      LookupMapValues(l.entries, x => k * x, j);
      if j !in Indices(l.entries) {
        LookupMissing(l.entries, j);
      }
    }
  }

  /**
   `Map(transform)`: a fresh list, sized for this one, holding the same indices with
   transformed values. The result type is kept at int.
   */
  function Map(l: List, f: int -> int): (r: List)
    ensures Size(r) == Size(l) && r.capacity == InitialCapacity(Size(l)) && Valid(r)
    ensures forall p :: 0 <= p < Size(l) ==>
              r.entries[p].index == l.entries[p].index && r.entries[p].value == f(l.entries[p].value)
    ensures Sorted(l.entries) ==> Sorted(r.entries)
  {
    List(MapValues(l.entries, f), InitialCapacity(|l.entries|))
  }

  /** Map transforms the value at each stored index and leaves the rest at 0. */
  lemma MapLookup(l: List, f: int -> int, j: int)
    ensures Lookup(Map(l, f).entries, j) == if j in Indices(l.entries) then f(Lookup(l.entries, j)) else 0
  {
    LookupMapValues(l.entries, f, j);
  }

  // ---------------------------------------------------------------------------
  // Reduce
  // ---------------------------------------------------------------------------

  /** The loop of `Reduce`: the accumulator is the combiner's SECOND argument. */
  function Fold(s: seq<Entry>, f: (Entry, Entry) -> Entry, acc: Entry): Entry
  {
    if |s| == 0 then acc else Fold(s[1..], f, f(s[0], acc))
  }

  /** `Reduce(reduce, initial_value)`: a left fold over the stored (index, value) pairs. */
  function Reduce(l: List, f: (Entry, Entry) -> Entry, init: Entry): (r: Entry)
    ensures Size(l) == 0 ==> r == init
    ensures Size(l) > 0 ==>
              r == f(l.entries[Size(l) - 1], Fold(l.entries[..Size(l) - 1], f, init))
  {
    if Size(l) == 0 then init
    else
      var n := Size(l) - 1;
      assert l.entries == l.entries[..n] + [l.entries[n]];
      FoldSnoc(l.entries[..n], l.entries[n], f, init);
      Fold(l.entries, f, init)
  }

  /** The fold peeled from the other end: the last entry is combined last. */
  lemma {:induction false} FoldSnoc(s: seq<Entry>, e: Entry, f: (Entry, Entry) -> Entry, acc: Entry)
    ensures Fold(s + [e], f, acc) == f(e, Fold(s, f, acc))
  {
    if |s| == 0 {
      assert s + [e] == [e];
      assert [e][1..] == [];
    } else {
      assert (s + [e])[1..] == s[1..] + [e];
      FoldSnoc(s[1..], e, f, f(s[0], acc));
    }
  }

  /** `MinReduce(a, b)`: b when its value is strictly smaller, otherwise a. */
  function MinReduce(a: Entry, b: Entry): (r: Entry)
    ensures r == a || r == b
    ensures r.value <= a.value && r.value <= b.value
    ensures b.value == a.value ==> r == a
  {
    if b.value < a.value then b else a
  }

  /** Reducing with MinReduce never exceeds a stored value or the initial one. */
  lemma {:induction false} FoldMinBound(s: seq<Entry>, acc: Entry)
    ensures forall k :: 0 <= k < |s| ==> Fold(s, MinReduce, acc).value <= s[k].value
    ensures Fold(s, MinReduce, acc).value <= acc.value
  {
    if |s| > 0 {
      var r := Fold(s, MinReduce, acc);
      assert r == Fold(s[1..], MinReduce, MinReduce(s[0], acc));
      FoldMinBound(s[1..], MinReduce(s[0], acc));
      forall k | 1 <= k < |s| ensures r.value <= s[k].value {
        assert s[1..][k - 1] == s[k];
      }
    }
  }

  /** When every stored value is strictly larger, the initial pair survives the fold. */
  lemma {:induction false} FoldMinKeepsInit(s: seq<Entry>, acc: Entry)
    requires forall k :: 0 <= k < |s| ==> s[k].value > acc.value
    ensures Fold(s, MinReduce, acc) == acc
  {
    if |s| > 0 {
      assert MinReduce(s[0], acc) == acc;
      forall k | 0 <= k < |s[1..]| ensures s[1..][k].value > acc.value {
        assert s[1..][k] == s[k + 1];
      }
      FoldMinKeepsInit(s[1..], acc);
    }
  }

  /**
   When some stored value is at most the initial one, the fold returns a stored entry
   that no later entry undercuts or ties: because the stored pair is MinReduce's first
   argument, it is the LAST entry attaining the minimum.
   */
  lemma {:induction false} FoldMinLast(s: seq<Entry>, acc: Entry)
    requires exists k :: 0 <= k < |s| && s[k].value <= acc.value
    ensures exists k :: 0 <= k < |s| && Fold(s, MinReduce, acc) == s[k]
                        && forall j :: k < j < |s| ==> s[j].value > s[k].value
  {
    var acc1 := MinReduce(s[0], acc);
    var r := Fold(s, MinReduce, acc);
    assert r == Fold(s[1..], MinReduce, acc1);
    if s[0].value <= acc.value && forall k :: 0 <= k < |s[1..]| ==> s[1..][k].value > acc1.value {
      FoldMinKeepsInit(s[1..], acc1);
      assert r == s[0];
      forall j | 0 < j < |s| ensures s[j].value > s[0].value {
        assert s[1..][j - 1] == s[j];
      }
    } else {
      if s[0].value > acc.value {
        var k0 :| 0 <= k0 < |s| && s[k0].value <= acc.value;
        assert k0 > 0;
        assert s[1..][k0 - 1] == s[k0];
      }
      assert exists k :: 0 <= k < |s[1..]| && s[1..][k].value <= acc1.value;
      FoldMinLast(s[1..], acc1);
      var k :| 0 <= k < |s[1..]| && r == s[1..][k]
               && forall j :: k < j < |s[1..]| ==> s[1..][j].value > s[1..][k].value;
      assert r == s[k + 1];
      forall j | k + 1 < j < |s| ensures s[j].value > s[k + 1].value {
        assert s[1..][j - 1] == s[j];
      }
    }
  }

  /**
   Reducing with MinReduce finds the minimum. Because the stored pair is MinReduce's
   first argument, an entry beats the accumulator on a tie: the result is the initial
   pair only when every stored value is strictly larger, and otherwise the LAST entry
   that attains the minimum.
   */
  lemma {:induction false} FoldMin(s: seq<Entry>, acc: Entry)
    ensures forall k :: 0 <= k < |s| ==> Fold(s, MinReduce, acc).value <= s[k].value
    ensures Fold(s, MinReduce, acc).value <= acc.value
    ensures (forall k :: 0 <= k < |s| ==> s[k].value > acc.value) ==> Fold(s, MinReduce, acc) == acc
    ensures (exists k :: 0 <= k < |s| && s[k].value <= acc.value) ==>
              exists k :: 0 <= k < |s| && Fold(s, MinReduce, acc) == s[k]
                          && forall j :: k < j < |s| ==> s[j].value > s[k].value
  {
    FoldMinBound(s, acc);
    if forall k :: 0 <= k < |s| ==> s[k].value > acc.value {
      FoldMinKeepsInit(s, acc);
    } else {
      FoldMinLast(s, acc);
    }
  }

  /** `Reduce(MinReduce, init)` on a list: the minimum, as FoldMin describes it. */
  lemma ReduceMin(l: List, init: Entry)
    ensures forall k :: 0 <= k < Size(l) ==> Reduce(l, MinReduce, init).value <= l.entries[k].value
    ensures Reduce(l, MinReduce, init).value <= init.value
    ensures Reduce(l, MinReduce, init) == init
            || exists k :: 0 <= k < Size(l) && Reduce(l, MinReduce, init) == l.entries[k]
  {
    FoldMin(l.entries, init);
  }

  // ---------------------------------------------------------------------------
  // Iterator
  // ---------------------------------------------------------------------------

  /** `List::Iterator`: a list and a cursor into its live prefix. */
  datatype Iterator = Iterator(list: List, pos: nat)

  /** `Begin()`: a cursor on the list's first entry. */
  function Begin(l: List): (it: Iterator)
    ensures it.list == l && it.pos == 0
  {
    Iterator(l, 0)
  }

  /** `Next()`: the cursor moves one entry on, over the same list. */
  function Next(it: Iterator): (r: Iterator)
    ensures r.list == it.list && r.pos == it.pos + 1
  {
    Iterator(it.list, it.pos + 1)
  }

  /** `IsEnd()`: the cursor has passed the live prefix. */
  predicate IsEnd(it: Iterator): (r: bool)
    ensures r <==> it.pos >= |it.list.entries|
  {
    it.pos >= Size(it.list)
  }

  /** `Index()`: the index stored under the cursor. */
  function Index(it: Iterator): (r: int)
    requires !IsEnd(it)
    ensures r == it.list.entries[it.pos].index
  {
    it.list.entries[it.pos].index
  }

  /** `Data()`: the value stored under the cursor. */
  function Data(it: Iterator): (r: int)
    requires !IsEnd(it)
    ensures r == it.list.entries[it.pos].value
  {
    it.list.entries[it.pos].value
  }

  /** The iterator after n calls to Next. */
  function Advance(it: Iterator, n: nat): Iterator
  {
    if n == 0 then it else Next(Advance(it, n - 1))
  }

  /** Walking from Begin visits the entries in storage order and ends after the last one. */
  lemma {:induction false} IteratorVisitsInOrder(l: List, n: nat)
    ensures Advance(Begin(l), n).list == l && Advance(Begin(l), n).pos == n
    ensures IsEnd(Advance(Begin(l), n)) <==> n >= Size(l)
    ensures n < Size(l) ==>
              Index(Advance(Begin(l), n)) == l.entries[n].index
              && Data(Advance(Begin(l), n)) == l.entries[n].value
  {
    if n > 0 {
      IteratorVisitsInOrder(l, n - 1);
    }
  }
}

=== FILE: sparse_tableau.dfy ===
/**
 `SparseTableau<T>` of tableau.h: a tableau whose axes are themselves sparse. Each
 axis is a sequence of slots; slot k holds the logical row (or column) index it stands
 for and the list stored there. In the source the axis is a `List<List<T>*>` whose
 index buffer carries the logical indices and whose data buffer carries the lists.
 */
module SparseTableaus {
  import opened Lists

  datatype Slot = Slot(index: int, list: List)

  datatype SparseTableau = SparseTableau(rowSlots: seq<Slot>, colSlots: seq<Slot>)

  /**
   The constructor sizes both axes but writes no slot. The model fills them with this
   placeholder; `SparseCross`, the only producer, overwrites every one before use.
   */
  const Unset: Slot := Slot(-1, New(0))

  function Blank(rows: nat, cols: nat): (st: SparseTableau)
    ensures |st.rowSlots| == rows && |st.colSlots| == cols
  {
    SparseTableau(seq(rows, _ => Unset), seq(cols, _ => Unset))
  }

  /** `Rows()`: the number of row slots. */
  function Rows(st: SparseTableau): (r: nat)
    ensures r == |st.rowSlots|
  {
    |st.rowSlots|
  }

  /** `Cols()`: the number of column slots. */
  function Cols(st: SparseTableau): (r: nat)
    ensures r == |st.colSlots|
  {
    |st.colSlots|
  }

  /** `Row(row)`: the list held by row slot k. */
  function Row(st: SparseTableau, k: int): (r: List)
    requires 0 <= k < Rows(st)
    ensures r == st.rowSlots[k].list
  {
    st.rowSlots[k].list
  }

  /** `Col(col)`: the list held by column slot k. */
  function Col(st: SparseTableau, k: int): (r: List)
    requires 0 <= k < Cols(st)
    ensures r == st.colSlots[k].list
  {
    st.colSlots[k].list
  }

  /** `SparseRowIndexOf(row)`: the logical row that slot k stands for. */
  function SparseRowIndexOf(st: SparseTableau, k: int): (r: int)
    requires 0 <= k < Rows(st)
    ensures r == st.rowSlots[k].index
  {
    st.rowSlots[k].index
  }

  /** `SparseColIndexOf(col)`: the logical column that slot k stands for. */
  function SparseColIndexOf(st: SparseTableau, k: int): (r: int)
    requires 0 <= k < Cols(st)
    ensures r == st.colSlots[k].index
  {
    st.colSlots[k].index
  }

  /** `SetRow(row, sparse_row_index, list)`: rewrite one row slot, nothing else. */
  function SetRow(st: SparseTableau, k: int, index: int, l: List): (r: SparseTableau)
    requires 0 <= k < Rows(st)
    ensures Rows(r) == Rows(st) && r.colSlots == st.colSlots
    ensures SparseRowIndexOf(r, k) == index && Row(r, k) == l
    ensures forall j :: 0 <= j < Rows(st) && j != k ==> r.rowSlots[j] == st.rowSlots[j]
  {
    SparseTableau(st.rowSlots[k := Slot(index, l)], st.colSlots)
  }

  /** `SetCol(col, sparse_col_index, list)`: rewrite one column slot, nothing else. */
  function SetCol(st: SparseTableau, k: int, index: int, l: List): (r: SparseTableau)
    requires 0 <= k < Cols(st)
    ensures Cols(r) == Cols(st) && r.rowSlots == st.rowSlots
    ensures SparseColIndexOf(r, k) == index && Col(r, k) == l
    ensures forall j :: 0 <= j < Cols(st) && j != k ==> r.colSlots[j] == st.colSlots[j]
  {
    SparseTableau(st.rowSlots, st.colSlots[k := Slot(index, l)])
  }

  /** The first loop of `SparseCross` from slot k on: slot j becomes b scaled by a's j-th value. */
  function FillRows(st: SparseTableau, a: seq<Entry>, b: List, k: nat): (r: SparseTableau)
    requires k <= |a| == Rows(st)
    ensures Rows(r) == Rows(st) && r.colSlots == st.colSlots
    ensures forall j :: 0 <= j < k ==> r.rowSlots[j] == st.rowSlots[j]
    ensures forall j :: k <= j < |a| ==> r.rowSlots[j] == Slot(a[j].index, Scale(b, a[j].value))
    decreases |a| - k
  {
    if k == |a| then st
    else FillRows(SetRow(st, k, a[k].index, Scale(b, a[k].value)), a, b, k + 1)
  }

  /** The second loop of `SparseCross` from slot k on: slot j becomes a scaled by b's j-th value. */
  function FillCols(st: SparseTableau, a: List, b: seq<Entry>, k: nat): (r: SparseTableau)
    requires k <= |b| == Cols(st)
    ensures Cols(r) == Cols(st) && r.rowSlots == st.rowSlots
    ensures forall j :: 0 <= j < k ==> r.colSlots[j] == st.colSlots[j]
    ensures forall j :: k <= j < |b| ==> r.colSlots[j] == Slot(b[j].index, Scale(a, b[j].value))
    decreases |b| - k
  {
    if k == |b| then st
    else FillCols(SetCol(st, k, b[k].index, Scale(a, b[k].value)), a, b, k + 1)
  }

  /**
   `List::SparseCross(other)`: one row slot per stored entry of a, at a's index and
   holding b scaled by a's value there; one column slot per stored entry of b, the
   other way round.
   */
  function SparseCross(a: List, b: List): (st: SparseTableau)
    ensures Rows(st) == Size(a) && Cols(st) == Size(b)
    ensures forall k :: 0 <= k < Size(a) ==>
              SparseRowIndexOf(st, k) == a.entries[k].index && Row(st, k) == Scale(b, a.entries[k].value)
    ensures forall k :: 0 <= k < Size(b) ==>
              SparseColIndexOf(st, k) == b.entries[k].index && Col(st, k) == Scale(a, b.entries[k].value)
  {
    FillCols(FillRows(Blank(|a.entries|, |b.entries|), a.entries, b, 0), a, b.entries, 0)
  }

  /**
   The outer-product law of SparseCross on sorted lists: row slot k, read at column j,
   is a's value at the slot's logical row times b's value at j; column slots alike.
   */
  lemma SparseCrossLookup(a: List, b: List)
    requires Sorted(a.entries) && Sorted(b.entries)
    ensures forall k, j :: 0 <= k < Size(a) ==>
              Lookup(Row(SparseCross(a, b), k).entries, j)
              == Lookup(a.entries, SparseRowIndexOf(SparseCross(a, b), k)) * Lookup(b.entries, j)
    ensures forall k, i :: 0 <= k < Size(b) ==>
              Lookup(Col(SparseCross(a, b), k).entries, i)
              == Lookup(b.entries, SparseColIndexOf(SparseCross(a, b), k)) * Lookup(a.entries, i)
  {
    var st := SparseCross(a, b);
    forall k, j | 0 <= k < Size(a)
      ensures Lookup(Row(st, k).entries, j) == Lookup(a.entries, SparseRowIndexOf(st, k)) * Lookup(b.entries, j)
    {
      ScaleLookup(b, a.entries[k].value);
      LookupAt(a.entries, k);
    }
    forall k, i | 0 <= k < Size(b)
      ensures Lookup(Col(st, k).entries, i) == Lookup(b.entries, SparseColIndexOf(st, k)) * Lookup(a.entries, i)
    {
      ScaleLookup(a, b.entries[k].value);
      LookupAt(b.entries, k);
    }
  }
}

=== FILE: tableau.dfy ===
/**
 `Tableau<T>` of tableau.h: a rows x columns matrix kept twice, as an array of row
 lists and an array of column lists, together with `List::Cross`, which builds one
 from an outer product.

 The two views are meant to describe one matrix: `Consistent` says that every row
 list read at column c and the column list c read at that row agree. The operations
 below say when they keep that promise.
 */
module Tableaus {
  import opened Wrappers
  import opened Lists
  import ListArith
  import SparseTableaus

  datatype Tableau = Tableau(rows: seq<List>, cols: seq<List>)

  /** `Rows()`: the number of row lists. */
  function Rows(t: Tableau): (n: nat)
    ensures n == |t.rows|
  {
    |t.rows|
  }

  /** `Cols()`: the number of column lists. */
  function Cols(t: Tableau): (n: nat)
    ensures n == |t.cols|
  {
    |t.cols|
  }

  /** Every stored index lies in [0, n). */
  predicate InRange(s: seq<Entry>, n: int)
  {
    forall k :: 0 <= k < |s| ==> 0 <= s[k].index < n
  }

  /** Each list is sorted and indexes the other axis, of length n. */
  predicate ListsOver(ls: seq<List>, n: int)
  {
    forall k :: 0 <= k < |ls| ==> Sorted(ls[k].entries) && InRange(ls[k].entries, n)
  }

  predicate WellFormed(t: Tableau)
  {
    ListsOver(t.rows, |t.cols|) && ListsOver(t.cols, |t.rows|)
  }

  /** The row view and the column view describe the same matrix. */
  predicate Consistent(t: Tableau)
  {
    && WellFormed(t)
    && forall r, c :: 0 <= r < |t.rows| && 0 <= c < |t.cols| ==>
         Lookup(t.rows[r].entries, c) == Lookup(t.cols[c].entries, r)
  }

  lemma InRangeSubset(s: seq<Entry>, x: seq<Entry>, y: seq<Entry>, n: int)
    requires Indices(s) <= Indices(x) + Indices(y) && InRange(x, n) && InRange(y, n)
    ensures InRange(s, n)
  {
    forall k | 0 <= k < |s| ensures 0 <= s[k].index < n {
      assert s[k].index in Indices(s);
    }
  }

  lemma InRangeMissing(s: seq<Entry>, n: int)
    requires InRange(s, n)
    ensures n !in Indices(s)
  {
  }

  /** `Tableau(rows, columns)`: every row and column an empty list. */
  function New(rows: nat, cols: nat): (t: Tableau)
    ensures Rows(t) == rows && Cols(t) == cols && Consistent(t)
    ensures forall r, c :: 0 <= r < rows && 0 <= c < cols ==> Lookup(t.rows[r].entries, c) == 0
  {
    Tableau(seq(rows, _ => Lists.New(0)), seq(cols, _ => Lists.New(0)))
  }

  /** `At(row, col)`: read through the row list; consistency makes the column list agree. */
  function At(t: Tableau, r: int, c: int): (v: int)
    requires 0 <= r < Rows(t)
    ensures WellFormed(t) ==> v == Lookup(t.rows[r].entries, c)
    ensures Consistent(t) && 0 <= c < Cols(t) ==> v == Lookup(t.cols[c].entries, r)
  {
    Lists.At(t.rows[r], c)
  }

  /** Exchanging the two views: rows become columns. */
  function Transpose(t: Tableau): Tableau
  {
    Tableau(t.cols, t.rows)
  }

  lemma TransposeConsistent(t: Tableau)
    requires Consistent(t)
    ensures Consistent(Transpose(t))
  {
  }

  // ---------------------------------------------------------------------------
  // Add
  // ---------------------------------------------------------------------------

  /** Adding lists position by position adds their views and keeps them sorted and in range. */
  lemma AddListsLaw(xs: seq<List>, ys: seq<List>, zs: seq<List>, n: int)
    requires |xs| == |ys| == |zs|
    requires forall k :: 0 <= k < |zs| ==> zs[k] == ListArith.Add(xs[k], ys[k])
    ensures ListsOver(xs, n) && ListsOver(ys, n) ==>
              ListsOver(zs, n)
              && forall k, j :: 0 <= k < |zs| ==>
                   Lookup(zs[k].entries, j) == Lookup(xs[k].entries, j) + Lookup(ys[k].entries, j)
  {
    if ListsOver(xs, n) && ListsOver(ys, n) {
      forall k | 0 <= k < |zs| ensures Sorted(zs[k].entries) && InRange(zs[k].entries, n) {
        InRangeSubset(zs[k].entries, xs[k].entries, ys[k].entries, n);
      }
    }
  }

  /** `Add(const Tableau*)`: add row i of other into row i and column j into column j. */
  function Add(t: Tableau, o: Tableau): (r: Tableau)
    requires Rows(t) == Rows(o) && Cols(t) == Cols(o)
    ensures Rows(r) == Rows(t) && Cols(r) == Cols(t)
    ensures Consistent(t) && Consistent(o) ==>
              Consistent(r)
              && forall i, j :: 0 <= i < Rows(t) && 0 <= j < Cols(t) ==>
                   At(r, i, j) == At(t, i, j) + At(o, i, j)
  {
    var rows := seq(|t.rows|, i requires 0 <= i < |t.rows| => ListArith.Add(t.rows[i], o.rows[i]));
    var cols := seq(|t.cols|, j requires 0 <= j < |t.cols| => ListArith.Add(t.cols[j], o.cols[j]));
    AddListsLaw(t.rows, o.rows, rows, |t.cols|);
    AddListsLaw(t.cols, o.cols, cols, |t.rows|);
    Tableau(rows, cols)
  }

  /** Slot indices address lists that exist. */
  predicate SlotsWithin(slots: seq<SparseTableaus.Slot>, n: int)
  {
    forall k :: 0 <= k < |slots| ==> 0 <= slots[k].index < n
  }

  /** Slot lists are sorted and index the other axis, of length n. */
  predicate SlotsOver(slots: seq<SparseTableaus.Slot>, n: int)
  {
    forall k :: 0 <= k < |slots| ==> Sorted(slots[k].list.entries) && InRange(slots[k].list.entries, n)
  }

  /** One loop of `Add(const SparseTableau*)`: slot k's list is added into list slots[k].index. */
  function AddSlots(ls: seq<List>, slots: seq<SparseTableaus.Slot>): (r: seq<List>)
    requires SlotsWithin(slots, |ls|)
    ensures |r| == |ls|
    decreases |slots|
  {
    if |slots| == 0 then ls
    else
      var i := slots[0].index;
      AddSlots(ls[i := ListArith.Add(ls[i], slots[0].list)], slots[1..])
  }

  /** What all slots standing for logical index i contribute at position j. */
  function SlotSum(slots: seq<SparseTableaus.Slot>, i: int, j: int): int
  {
    if |slots| == 0 then 0
    else (if slots[0].index == i then Lookup(slots[0].list.entries, j) else 0) + SlotSum(slots[1..], i, j)
  }

  lemma {:induction false} AddSlotsLaw(ls: seq<List>, slots: seq<SparseTableaus.Slot>, n: int)
    requires SlotsWithin(slots, |ls|)
    ensures ListsOver(ls, n) && SlotsOver(slots, n) ==>
              ListsOver(AddSlots(ls, slots), n)
              && forall i, j :: 0 <= i < |ls| ==>
                   Lookup(AddSlots(ls, slots)[i].entries, j) == Lookup(ls[i].entries, j) + SlotSum(slots, i, j)
    decreases |slots|
  {
    if |slots| > 0 && ListsOver(ls, n) && SlotsOver(slots, n) {
      var i0 := slots[0].index;
      var added := ListArith.Add(ls[i0], slots[0].list);
      var ls' := ls[i0 := added];
      InRangeSubset(added.entries, ls[i0].entries, slots[0].list.entries, n);
      assert ListsOver(ls', n);
      assert SlotsWithin(slots[1..], |ls'|);
      assert SlotsOver(slots[1..], n);
      AddSlotsLaw(ls', slots[1..], n);
      assert AddSlots(ls, slots) == AddSlots(ls', slots[1..]);
    }
  }

  /**
   `Add(const SparseTableau*)`: each row slot's list is added into the row at the
   slot's logical index, and each column slot likewise. The loops run one slot after
   another, so slots that share a logical index both count.
   */
  function AddSparse(t: Tableau, st: SparseTableaus.SparseTableau): (r: Tableau)
    requires SlotsWithin(st.rowSlots, Rows(t)) && SlotsWithin(st.colSlots, Cols(t))
    ensures Rows(r) == Rows(t) && Cols(r) == Cols(t)
    ensures WellFormed(t) && SlotsOver(st.rowSlots, Cols(t)) && SlotsOver(st.colSlots, Rows(t)) ==>
              WellFormed(r)
              && (forall i, j :: 0 <= i < Rows(t) ==>
                    Lookup(r.rows[i].entries, j) == Lookup(t.rows[i].entries, j) + SlotSum(st.rowSlots, i, j))
              && (forall j, i :: 0 <= j < Cols(t) ==>
                    Lookup(r.cols[j].entries, i) == Lookup(t.cols[j].entries, i) + SlotSum(st.colSlots, j, i))
  {
    AddSlotsLaw(t.rows, st.rowSlots, |t.cols|);
    AddSlotsLaw(t.cols, st.colSlots, |t.rows|);
    Tableau(AddSlots(t.rows, st.rowSlots), AddSlots(t.cols, st.colSlots))
  }

  /** The slots SparseCross builds from a sorted list a add up to a's value at i times b's at j. */
  lemma {:induction false} CrossSlotSum(a: seq<Entry>, b: List, slots: seq<SparseTableaus.Slot>, i: int, j: int)
    requires Sorted(a) && |slots| == |a|
    requires forall k :: 0 <= k < |a| ==> slots[k] == SparseTableaus.Slot(a[k].index, Scale(b, a[k].value))
    ensures SlotSum(slots, i, j) == Lookup(a, i) * Lookup(b.entries, j)
  {
    if |a| > 0 {
      SortedTail(a);
      CrossSlotSum(a[1..], b, slots[1..], i, j);
      if a[0].index == i {
        ScaleLookup(b, a[0].value);
        LookupAbove(a[1..], i);
      }
    }
  }

  /** Scaling keeps a list sorted and in range. */
  lemma ScaleOver(l: List, k: int, n: int)
    requires Sorted(l.entries) && InRange(l.entries, n)
    ensures Sorted(Scale(l, k).entries) && InRange(Scale(l, k).entries, n)
  {
  }

  /** The slots SparseCross builds from a and b address existing lists and hold sorted, in-range lists. */
  lemma CrossSlotsOver(a: seq<Entry>, b: List, slots: seq<SparseTableaus.Slot>, n: int, m: int)
    requires |slots| == |a| && InRange(a, m) && Sorted(b.entries) && InRange(b.entries, n)
    requires forall k :: 0 <= k < |a| ==> slots[k] == SparseTableaus.Slot(a[k].index, Scale(b, a[k].value))
    ensures SlotsWithin(slots, m) && SlotsOver(slots, n)
  {
    forall k | 0 <= k < |slots|
      ensures Sorted(slots[k].list.entries) && InRange(slots[k].list.entries, n)
    {
      ScaleOver(b, a[k].value, n);
    }
  }

  /** Adding the outer product of a and b to both views of a consistent tableau keeps them consistent. */
  lemma OuterSumConsistent(t: Tableau, r: Tableau, a: seq<Entry>, b: seq<Entry>)
    requires Consistent(t) && WellFormed(r) && Rows(r) == Rows(t) && Cols(r) == Cols(t)
    requires forall i, j :: 0 <= i < Rows(t) && 0 <= j < Cols(t) ==>
               Lookup(r.rows[i].entries, j) == Lookup(t.rows[i].entries, j) + Lookup(a, i) * Lookup(b, j)
    requires forall j, i :: 0 <= j < Cols(t) && 0 <= i < Rows(t) ==>
               Lookup(r.cols[j].entries, i) == Lookup(t.cols[j].entries, i) + Lookup(b, j) * Lookup(a, i)
    ensures Consistent(r)
  {
    forall i, j | 0 <= i < Rows(t) && 0 <= j < Cols(t)
      ensures Lookup(r.rows[i].entries, j) == Lookup(r.cols[j].entries, i)
    {
      assert Lookup(b, j) * Lookup(a, i) == Lookup(a, i) * Lookup(b, j);
    }
  }

  /**
   Adding the sparse outer product of sorted a and b to a consistent tableau adds
   a(i) * b(j) at every position and keeps the two views consistent.
   */
  lemma AddSparseCross(t: Tableau, a: List, b: List)
    requires Consistent(t) && Sorted(a.entries) && Sorted(b.entries)
    requires InRange(a.entries, Rows(t)) && InRange(b.entries, Cols(t))
    ensures SlotsWithin(SparseTableaus.SparseCross(a, b).rowSlots, Rows(t))
    ensures SlotsWithin(SparseTableaus.SparseCross(a, b).colSlots, Cols(t))
    ensures Consistent(AddSparse(t, SparseTableaus.SparseCross(a, b)))
    ensures forall i, j :: 0 <= i < Rows(t) && 0 <= j < Cols(t) ==>
              At(AddSparse(t, SparseTableaus.SparseCross(a, b)), i, j)
              == At(t, i, j) + Lookup(a.entries, i) * Lookup(b.entries, j)
  {
    var st := SparseTableaus.SparseCross(a, b);
    CrossSlotsOver(a.entries, b, st.rowSlots, Cols(t), Rows(t));
    CrossSlotsOver(b.entries, a, st.colSlots, Rows(t), Cols(t));
    var r := AddSparse(t, st);
    assert forall i, j :: 0 <= i < Rows(t) && 0 <= j < Cols(t) ==>
             Lookup(r.rows[i].entries, j) == Lookup(t.rows[i].entries, j) + Lookup(a.entries, i) * Lookup(b.entries, j)
    by {
      forall i, j | 0 <= i < Rows(t) && 0 <= j < Cols(t)
        ensures Lookup(r.rows[i].entries, j) == Lookup(t.rows[i].entries, j) + Lookup(a.entries, i) * Lookup(b.entries, j)
      {
        CrossSlotSum(a.entries, b, st.rowSlots, i, j);
      }
    }
    assert forall j, i :: 0 <= j < Cols(t) && 0 <= i < Rows(t) ==>
             Lookup(r.cols[j].entries, i) == Lookup(t.cols[j].entries, i) + Lookup(b.entries, j) * Lookup(a.entries, i)
    by {
      forall j, i | 0 <= j < Cols(t) && 0 <= i < Rows(t)
        ensures Lookup(r.cols[j].entries, i) == Lookup(t.cols[j].entries, i) + Lookup(b.entries, j) * Lookup(a.entries, i)
      {
        CrossSlotSum(b.entries, a, st.colSlots, j, i);
      }
    }
    OuterSumConsistent(t, r, a.entries, b.entries);
  }

  // ---------------------------------------------------------------------------
  // SetRow, SetCol and Cross
  // ---------------------------------------------------------------------------

  /** `SetRow(row, list)`: the row list at r is replaced; no other list changes. */
  function SetRow(t: Tableau, r: int, l: List): (res: Tableau)
    requires 0 <= r < Rows(t)
    ensures Rows(res) == Rows(t) && res.cols == t.cols && res.rows[r] == l
    ensures forall i :: 0 <= i < Rows(t) && i != r ==> res.rows[i] == t.rows[i]
  {
    Tableau(t.rows[r := l], t.cols)
  }

  /** `SetCol(col, list)`: the column list at c is replaced; no other list changes. */
  function SetCol(t: Tableau, c: int, l: List): (res: Tableau)
    requires 0 <= c < Cols(t)
    ensures Cols(res) == Cols(t) && res.rows == t.rows && res.cols[c] == l
    ensures forall j :: 0 <= j < Cols(t) && j != c ==> res.cols[j] == t.cols[j]
  {
    Tableau(t.rows, t.cols[c := l])
  }

  /** The first loop of `Cross`: for each entry of a, the row at its index becomes b scaled by its value. */
  function CrossRows(t: Tableau, a: seq<Entry>, b: List): (res: Tableau)
    requires InRange(a, Rows(t))
    ensures Rows(res) == Rows(t) && res.cols == t.cols
    ensures Sorted(a) ==>
              forall i :: 0 <= i < Rows(t) ==>
                res.rows[i] == if i in Indices(a) then Scale(b, Lookup(a, i)) else t.rows[i]
    decreases |a|
  {
    if |a| == 0 then t
    else
      var t1 := SetRow(t, a[0].index, Scale(b, a[0].value));
      IndicesTail(a);
      HeadApart(a);
      CrossRows(t1, a[1..], b)
  }

  /** The second loop of `Cross`: for each entry of b, the column at its index becomes a scaled by its value. */
  function CrossCols(t: Tableau, a: List, b: seq<Entry>): (res: Tableau)
    requires InRange(b, Cols(t))
    ensures Cols(res) == Cols(t) && res.rows == t.rows
    ensures Sorted(b) ==>
              forall j :: 0 <= j < Cols(t) ==>
                res.cols[j] == if j in Indices(b) then Scale(a, Lookup(b, j)) else t.cols[j]
    decreases |b|
  {
    if |b| == 0 then t
    else
      var t1 := SetCol(t, b[0].index, Scale(a, b[0].value));
      IndicesTail(b);
      HeadApart(b);
      CrossCols(t1, a, b[1..])
  }

  /**
   `List::Cross(other, rows, cols)`: a rows x cols tableau whose row i is b scaled by
   a(i) for each stored i of a and whose column j is a scaled by b(j) for each stored
   j of b; every other row and column stays an empty list.
   */
  function Cross(a: List, b: List, rows: nat, cols: nat): (t: Tableau)
    requires InRange(a.entries, rows) && InRange(b.entries, cols)
    ensures Rows(t) == rows && Cols(t) == cols
    ensures Sorted(a.entries) && Sorted(b.entries) ==>
              && Consistent(t)
              && (forall i, j :: 0 <= i < rows && 0 <= j < cols ==>
                    At(t, i, j) == Lookup(a.entries, i) * Lookup(b.entries, j))
              && (forall i :: 0 <= i < rows && i !in Indices(a.entries) ==> Size(t.rows[i]) == 0)
              && (forall j :: 0 <= j < cols && j !in Indices(b.entries) ==> Size(t.cols[j]) == 0)
  {
    var t1 := CrossRows(New(rows, cols), a.entries, b);
    var t := CrossCols(t1, a, b.entries);
    CrossRowsForm(a.entries, b, rows, cols);
    CrossColsForm(a, b.entries, t1);
    CrossLaw(a, b, t);
    t
  }

  /** One list of the cross product: a scaled b where the index is stored, the empty list elsewhere. */
  lemma CrossListView(a: seq<Entry>, b: List, i: int, l: List, n: int)
    requires Sorted(a) && Sorted(b.entries) && InRange(b.entries, n)
    requires l == if i in Indices(a) then Scale(b, Lookup(a, i)) else Lists.New(0)
    ensures Sorted(l.entries) && InRange(l.entries, n)
    ensures forall j :: Lookup(l.entries, j) == Lookup(a, i) * Lookup(b.entries, j)
  {
    if i in Indices(a) {
      ScaleLookup(b, Lookup(a, i));
      ScaleOver(b, Lookup(a, i), n);
    } else {
      LookupMissing(a, i);
    }
  }

  /** The lists on one side of the cross product all read as the outer product. */
  lemma CrossListsView(a: seq<Entry>, b: List, ls: seq<List>, n: int)
    requires Sorted(a) && Sorted(b.entries) && InRange(b.entries, n)
    requires forall i :: 0 <= i < |ls| ==>
               ls[i] == if i in Indices(a) then Scale(b, Lookup(a, i)) else Lists.New(0)
    ensures ListsOver(ls, n)
    ensures forall i, j :: 0 <= i < |ls| ==> Lookup(ls[i].entries, j) == Lookup(a, i) * Lookup(b.entries, j)
  {
    forall i | 0 <= i < |ls|
      ensures Sorted(ls[i].entries) && InRange(ls[i].entries, n)
      ensures forall j :: Lookup(ls[i].entries, j) == Lookup(a, i) * Lookup(b.entries, j)
    {
      CrossListView(a, b, i, ls[i], n);
    }
  }

  /** The row loop of Cross, run on a fresh tableau, leaves exactly the rows a names filled. */
  lemma CrossRowsForm(a: seq<Entry>, b: List, rows: nat, cols: nat)
    requires InRange(a, rows)
    ensures Sorted(a) ==>
              forall i :: 0 <= i < rows ==>
                CrossRows(New(rows, cols), a, b).rows[i] == if i in Indices(a) then Scale(b, Lookup(a, i)) else Lists.New(0)
    ensures CrossRows(New(rows, cols), a, b).cols == New(rows, cols).cols
  {
    assert forall i :: 0 <= i < rows ==> New(rows, cols).rows[i] == Lists.New(0);
  }

  /** The column loop of Cross, run after the row loop, leaves exactly the columns b names filled. */
  lemma CrossColsForm(a: List, b: seq<Entry>, t: Tableau)
    requires InRange(b, Cols(t))
    requires forall j :: 0 <= j < Cols(t) ==> t.cols[j] == Lists.New(0)
    ensures Sorted(b) ==>
              forall j :: 0 <= j < Cols(t) ==>
                CrossCols(t, a, b).cols[j] == if j in Indices(b) then Scale(a, Lookup(b, j)) else Lists.New(0)
    ensures CrossCols(t, a, b).rows == t.rows
  {
  }

  /** Two views that both read as the outer product of a and b describe the same matrix. */
  lemma OuterConsistent(t: Tableau, a: seq<Entry>, b: seq<Entry>)
    requires ListsOver(t.rows, |t.cols|) && ListsOver(t.cols, |t.rows|)
    requires forall i, j :: 0 <= i < |t.rows| ==> Lookup(t.rows[i].entries, j) == Lookup(a, i) * Lookup(b, j)
    requires forall j, i :: 0 <= j < |t.cols| ==> Lookup(t.cols[j].entries, i) == Lookup(b, j) * Lookup(a, i)
    ensures Consistent(t)
  {
    forall i, j | 0 <= i < |t.rows| && 0 <= j < |t.cols|
      ensures Lookup(t.rows[i].entries, j) == Lookup(t.cols[j].entries, i)
    {
      assert Lookup(b, j) * Lookup(a, i) == Lookup(a, i) * Lookup(b, j);
    }
  }

  /** A tableau whose rows and columns have the shape Cross gives them is consistent and reads as a(i) * b(j). */
  lemma CrossLaw(a: List, b: List, t: Tableau)
    requires InRange(a.entries, Rows(t)) && InRange(b.entries, Cols(t))
    requires Sorted(a.entries) && Sorted(b.entries) ==>
               (forall i :: 0 <= i < Rows(t) ==>
                  t.rows[i] == if i in Indices(a.entries) then Scale(b, Lookup(a.entries, i)) else Lists.New(0))
               && (forall j :: 0 <= j < Cols(t) ==>
                     t.cols[j] == if j in Indices(b.entries) then Scale(a, Lookup(b.entries, j)) else Lists.New(0))
    ensures Sorted(a.entries) && Sorted(b.entries) ==>
              Consistent(t)
              && forall i, j :: 0 <= i < Rows(t) && 0 <= j < Cols(t) ==>
                   Lookup(t.rows[i].entries, j) == Lookup(a.entries, i) * Lookup(b.entries, j)
  {
    if Sorted(a.entries) && Sorted(b.entries) {
      CrossListsView(a.entries, b, t.rows, Cols(t));
      CrossListsView(b.entries, a, t.cols, Rows(t));
      OuterConsistent(t, a.entries, b.entries);
    }
  }

  // ---------------------------------------------------------------------------
  // AppendRow, AppendCol, AppendExtraCol, RemoveExtraCol
  // ---------------------------------------------------------------------------

  /**
   The scatter loop shared by the append operations: for each entry (j, v) of es, in
   order, `Append(pos, v)` on list j. None when one of those appends writes past its
   buffers.
   */
  function Scatter(ls: seq<List>, pos: int, es: seq<Entry>): (r: Option<seq<List>>)
    requires InRange(es, |ls|)
    ensures r.Some? ==> |r.value| == |ls|
    ensures r.Some? <==> forall k :: 0 <= k < |es| ==> CanAppend(ls[es[k].index])
    decreases |es|
  {
    if |es| == 0 then Some(ls)
    else
      var j := es[0].index;
      match Append(ls[j], pos, es[0].value)
      case None => None
      case Some(l) =>
        var rest := Scatter(ls[j := l], pos, es[1..]);
        assert forall k :: 1 <= k < |es| ==> es[1..][k - 1] == es[k];
        rest
  }

  /** With distinct indices in es, each named list gets exactly one Append and the rest are untouched. */
  lemma {:induction false} ScatterEffect(ls: seq<List>, pos: int, es: seq<Entry>)
    requires InRange(es, |ls|) && Sorted(es) && Scatter(ls, pos, es).Some?
    ensures forall k :: 0 <= k < |es| ==>
              Append(ls[es[k].index], pos, es[k].value) == Some(Scatter(ls, pos, es).value[es[k].index])
    ensures forall j :: 0 <= j < |ls| && j !in Indices(es) ==> Scatter(ls, pos, es).value[j] == ls[j]
    decreases |es|
  {
    if |es| > 0 {
      var j0 := es[0].index;
      var l := Append(ls[j0], pos, es[0].value).value;
      var ls' := ls[j0 := l];
      SortedTail(es);
      IndicesTail(es);
      ScatterEffect(ls', pos, es[1..]);
      var res := Scatter(ls, pos, es).value;
      assert res == Scatter(ls', pos, es[1..]).value;
      assert j0 !in Indices(es[1..]);
      forall k | 1 <= k < |es|
        ensures Append(ls[es[k].index], pos, es[k].value) == Some(res[es[k].index])
      {
        assert es[1..][k - 1] == es[k];
      }
    }
  }

  /** Sequential `Pop(last)` on every list named in es. */
  function PopAll(ls: seq<List>, last: int, es: seq<Entry>): (r: seq<List>)
    requires InRange(es, |ls|)
    ensures |r| == |ls|
    decreases |es|
  {
    if |es| == 0 then ls
    else
      var j := es[0].index;
      PopAll(ls[j := Pop(ls[j], last)], last, es[1..])
  }

  lemma {:induction false} PopAllEffect(ls: seq<List>, last: int, es: seq<Entry>)
    requires InRange(es, |ls|) && Sorted(es)
    ensures forall k :: 0 <= k < |es| ==> PopAll(ls, last, es)[es[k].index] == Pop(ls[es[k].index], last)
    ensures forall j :: 0 <= j < |ls| && j !in Indices(es) ==> PopAll(ls, last, es)[j] == ls[j]
    decreases |es|
  {
    if |es| > 0 {
      var j0 := es[0].index;
      var ls' := ls[j0 := Pop(ls[j0], last)];
      SortedTail(es);
      IndicesTail(es);
      PopAllEffect(ls', last, es[1..]);
      assert j0 !in Indices(es[1..]);
      forall k | 1 <= k < |es|
        ensures PopAll(ls, last, es)[es[k].index] == Pop(ls[es[k].index], last)
      {
        assert es[1..][k - 1] == es[k];
      }
    }
  }

  /**
   `AppendRow(row, list)`: row r becomes the list, and for each stored (j, v) of it,
   in order, column j gets (r, v) appended.
   */
  function AppendRow(t: Tableau, r: int, l: List): (res: Option<Tableau>)
    requires 0 <= r < Rows(t) && InRange(l.entries, Cols(t))
    ensures res.Some? <==> forall k :: 0 <= k < Size(l) ==> CanAppend(t.cols[l.entries[k].index])
    ensures res.Some? ==>
              Rows(res.value) == Rows(t) && Cols(res.value) == Cols(t) && res.value.rows[r] == l
              && forall i :: 0 <= i < Rows(t) && i != r ==> res.value.rows[i] == t.rows[i]
  {
    match Scatter(t.cols, r, l.entries)
    case None => None
    case Some(cols) => Some(Tableau(t.rows[r := l], cols))
  }

  /** Each column named in the new row gains exactly the entry (r, value) at its end. */
  lemma AppendRowColumns(t: Tableau, r: int, l: List)
    requires 0 <= r < Rows(t) && InRange(l.entries, Cols(t)) && Sorted(l.entries)
    requires AppendRow(t, r, l).Some?
    ensures forall j :: 0 <= j < Cols(t) && j in Indices(l.entries) ==>
              AppendRow(t, r, l).value.cols[j].entries == t.cols[j].entries + [Entry(r, Lookup(l.entries, j))]
    ensures forall j :: 0 <= j < Cols(t) && j !in Indices(l.entries) ==>
              AppendRow(t, r, l).value.cols[j] == t.cols[j]
  {
    ScatterEffect(t.cols, r, l.entries);
    var res := AppendRow(t, r, l).value;
    forall j | 0 <= j < Cols(t) && j in Indices(l.entries)
      ensures res.cols[j].entries == t.cols[j].entries + [Entry(r, Lookup(l.entries, j))]
    {
      var k :| 0 <= k < |l.entries| && l.entries[k].index == j;
      LookupAt(l.entries, k);
      assert Append(t.cols[j], r, l.entries[k].value) == Some(res.cols[j]);
      assert res.cols[j].entries[..|t.cols[j].entries|] == t.cols[j].entries;
      assert res.cols[j].entries == res.cols[j].entries[..|t.cols[j].entries|] + [res.cols[j].entries[|t.cols[j].entries|]];
    }
  }

  /** The value of one column after the scatter, at any row. */
  lemma AppendedColumnLookup(prior: seq<Entry>, r: int, v: int, i: int, rows: nat)
    requires Sorted(prior) && Below(prior, r) && InRange(prior, rows) && 0 <= r < rows
    ensures Sorted(prior + [Entry(r, v)]) && InRange(prior + [Entry(r, v)], rows)
    ensures Lookup(prior + [Entry(r, v)], i) == if i == r then v else Lookup(prior, i)
  {
    LookupSnoc(prior, Entry(r, v), i);
    if i !in Indices(prior) {
      LookupMissing(prior, i);
    }
  }

  /**
   One column after AppendRow: it gained (r, value) when the new row names it, and is
   unchanged otherwise; either way it reads as the rows read at j.
   */
  lemma AppendedColumnView(prior: seq<Entry>, after: seq<Entry>, rows: seq<List>, r: int, j: int, l: seq<Entry>)
    requires 0 <= r < |rows| && Sorted(prior) && InRange(prior, |rows|) && Sorted(l)
    requires rows[r].entries == l
    requires forall i :: 0 <= i < |rows| && i != r ==> Lookup(prior, i) == Lookup(rows[i].entries, j)
    requires Lookup(prior, r) == 0
    requires j in Indices(l) ==> Below(prior, r) && after == prior + [Entry(r, Lookup(l, j))]
    requires j !in Indices(l) ==> after == prior
    ensures Sorted(after) && InRange(after, |rows|)
    ensures forall i :: 0 <= i < |rows| ==> Lookup(after, i) == Lookup(rows[i].entries, j)
  {
    if j in Indices(l) {
      forall i | 0 <= i < |rows|
        ensures Lookup(after, i) == Lookup(rows[i].entries, j)
      {
        AppendedColumnLookup(prior, r, Lookup(l, j), i, |rows|);
      }
      AppendedColumnLookup(prior, r, Lookup(l, j), 0, |rows|);
    } else {
      LookupMissing(l, j);
    }
  }

  /**
   AppendRow keeps the views consistent when the row it replaces reads 0 everywhere
   and r exceeds every index already stored in the columns the new row touches.
   */
  lemma AppendRowConsistent(t: Tableau, r: int, l: List)
    requires Consistent(t) && 0 <= r < Rows(t)
    requires Sorted(l.entries) && InRange(l.entries, Cols(t))
    requires forall j :: 0 <= j < Cols(t) ==> Lookup(t.rows[r].entries, j) == 0
    requires forall j :: 0 <= j < Cols(t) && j in Indices(l.entries) ==> Below(t.cols[j].entries, r)
    requires AppendRow(t, r, l).Some?
    ensures Consistent(AppendRow(t, r, l).value)
    ensures forall j :: 0 <= j < Cols(t) ==>
              Lookup(AppendRow(t, r, l).value.cols[j].entries, r) == At(AppendRow(t, r, l).value, r, j)
  {
    var res := AppendRow(t, r, l).value;
    assert ListsOver(res.rows, Cols(t));
    forall j | 0 <= j < Cols(t)
      ensures Sorted(res.cols[j].entries) && InRange(res.cols[j].entries, Rows(t))
      ensures forall i :: 0 <= i < Rows(t) ==> Lookup(res.cols[j].entries, i) == Lookup(res.rows[i].entries, j)
    {
      assert j in Indices(l.entries) ==> res.cols[j].entries == t.cols[j].entries + [Entry(r, Lookup(l.entries, j))]
      by {
        AppendRowColumns(t, r, l);
      }
      assert j !in Indices(l.entries) ==> res.cols[j] == t.cols[j] by {
        AppendRowColumns(t, r, l);
      }
      assert Lookup(t.cols[j].entries, r) == Lookup(t.rows[r].entries, j);
      AppendedColumnView(t.cols[j].entries, res.cols[j].entries, res.rows, r, j, l.entries);
    }
  }

  /**
   `AppendCol(col, list)`: column c becomes the list, and for each stored (i, v) of it,
   in order, row i gets (c, v) appended.
   */
  function AppendCol(t: Tableau, c: int, l: List): (res: Option<Tableau>)
    requires 0 <= c < Cols(t) && InRange(l.entries, Rows(t))
    ensures res.Some? <==> forall k :: 0 <= k < Size(l) ==> CanAppend(t.rows[l.entries[k].index])
    ensures res.Some? ==>
              Rows(res.value) == Rows(t) && Cols(res.value) == Cols(t) && res.value.cols[c] == l
              && forall j :: 0 <= j < Cols(t) && j != c ==> res.value.cols[j] == t.cols[j]
  {
    match Scatter(t.rows, c, l.entries)
    case None => None
    case Some(rows) => Some(Tableau(rows, t.cols[c := l]))
  }

  /** AppendCol is AppendRow on the transposed tableau: the two are mirror images. */
  lemma AppendColIsTransposedAppendRow(t: Tableau, c: int, l: List)
    requires 0 <= c < Cols(t) && InRange(l.entries, Rows(t))
    ensures AppendCol(t, c, l).Some? == AppendRow(Transpose(t), c, l).Some?
    ensures AppendCol(t, c, l).Some? ==> AppendCol(t, c, l).value == Transpose(AppendRow(Transpose(t), c, l).value)
  {
  }

  /** The mirror image of AppendRowConsistent. */
  lemma AppendColConsistent(t: Tableau, c: int, l: List)
    requires Consistent(t) && 0 <= c < Cols(t)
    requires Sorted(l.entries) && InRange(l.entries, Rows(t))
    requires forall i :: 0 <= i < Rows(t) ==> Lookup(t.cols[c].entries, i) == 0
    requires forall i :: 0 <= i < Rows(t) && i in Indices(l.entries) ==> Below(t.rows[i].entries, c)
    requires AppendCol(t, c, l).Some?
    ensures Consistent(AppendCol(t, c, l).value)
    ensures forall i :: 0 <= i < Rows(t) ==>
              At(AppendCol(t, c, l).value, i, c) == Lookup(AppendCol(t, c, l).value.cols[c].entries, i)
  {
    TransposeConsistent(t);
    AppendColIsTransposedAppendRow(t, c, l);
    AppendRowConsistent(Transpose(t), c, l);
    TransposeConsistent(AppendRow(Transpose(t), c, l).value);
  }

  /**
   `AppendExtraCol(list)`: the column array grows by one slot holding the list, and for
   each stored (i, v) of it, in order, row i gets (old column count, v) appended.
   */
  function AppendExtraCol(t: Tableau, l: List): (res: Option<Tableau>)
    requires InRange(l.entries, Rows(t))
    ensures res.Some? <==> forall k :: 0 <= k < Size(l) ==> CanAppend(t.rows[l.entries[k].index])
    ensures res.Some? ==>
              Rows(res.value) == Rows(t) && Cols(res.value) == Cols(t) + 1
              && res.value.cols[..Cols(t)] == t.cols && res.value.cols[Cols(t)] == l
  {
    match Scatter(t.rows, |t.cols|, l.entries)
    case None => None
    case Some(rows) =>
      assert (t.cols + [l])[..|t.cols|] == t.cols;
      Some(Tableau(rows, t.cols + [l]))
  }

  /** Each row named in the new column gains exactly (old column count, value) at its end. */
  lemma AppendExtraColRows(t: Tableau, l: List)
    requires InRange(l.entries, Rows(t)) && Sorted(l.entries) && AppendExtraCol(t, l).Some?
    ensures forall k :: 0 <= k < Size(l) ==>
              Append(t.rows[l.entries[k].index], Cols(t), l.entries[k].value)
              == Some(AppendExtraCol(t, l).value.rows[l.entries[k].index])
    ensures forall i :: 0 <= i < Rows(t) && i !in Indices(l.entries) ==>
              AppendExtraCol(t, l).value.rows[i] == t.rows[i]
  {
    ScatterEffect(t.rows, |t.cols|, l.entries);
  }

  /** AppendExtraCol keeps a consistent tableau consistent: the new column index exceeds every row index. */
  lemma AppendExtraColConsistent(t: Tableau, l: List)
    requires Consistent(t) && Sorted(l.entries) && InRange(l.entries, Rows(t))
    requires AppendExtraCol(t, l).Some?
    ensures Consistent(AppendExtraCol(t, l).value)
  {
    var widened := Tableau(t.rows, t.cols + [Lists.New(0)]);
    forall i | 0 <= i < Rows(t)
      ensures InRange(t.rows[i].entries, |t.cols| + 1) && Lookup(t.rows[i].entries, |t.cols|) == 0
    {
      InRangeMissing(t.rows[i].entries, |t.cols|);
      LookupMissing(t.rows[i].entries, |t.cols|);
    }
    assert Consistent(widened);
    assert AppendCol(widened, |t.cols|, l).Some?;
    AppendColConsistent(widened, |t.cols|, l);
    assert AppendCol(widened, |t.cols|, l).value == AppendExtraCol(t, l).value;
  }

  /**
   `RemoveExtraCol()`: the column count drops by one, and every row named in the last
   column gets `Pop(new column count)`. The last column list itself is no longer reachable.
   */
  function RemoveExtraCol(t: Tableau): (res: Tableau)
    requires Cols(t) >= 1 && InRange(t.cols[Cols(t) - 1].entries, Rows(t))
    ensures Rows(res) == Rows(t) && Cols(res) == Cols(t) - 1
    ensures res.cols == t.cols[..Cols(t) - 1]
  {
    var c := |t.cols| - 1;
    Tableau(PopAll(t.rows, c, t.cols[c].entries), t.cols[..c])
  }

  /** On a sorted last column, each row it names receives exactly one Pop and every other row is unchanged. */
  lemma RemoveExtraColRows(t: Tableau, last: List)
    requires Cols(t) >= 1 && last == t.cols[Cols(t) - 1]
    requires InRange(last.entries, Rows(t)) && Sorted(last.entries)
    ensures forall k :: 0 <= k < Size(last) ==>
              RemoveExtraCol(t).rows[last.entries[k].index] == Pop(t.rows[last.entries[k].index], Cols(t) - 1)
    ensures forall i :: 0 <= i < Rows(t) && i !in Indices(last.entries) ==> RemoveExtraCol(t).rows[i] == t.rows[i]
  {
    PopAllEffect(t.rows, Cols(t) - 1, last.entries);
  }

  /** Views are a matter of entries: equal entries everywhere carry consistency over. */
  lemma SameEntriesConsistent(t: Tableau, u: Tableau)
    requires Consistent(t) && u.cols == t.cols && Rows(u) == Rows(t)
    requires forall i :: 0 <= i < Rows(t) ==> u.rows[i].entries == t.rows[i].entries
    ensures Consistent(u)
  {
  }

  /**
   RemoveExtraCol undoes AppendExtraCol: the columns and the entries of every row come
   back exactly (a row's buffers may stay grown), so consistency comes back too.
   */
  lemma AppendThenRemoveExtraCol(t: Tableau, l: List)
    requires InRange(l.entries, Rows(t)) && Sorted(l.entries) && AppendExtraCol(t, l).Some?
    ensures Cols(AppendExtraCol(t, l).value) >= 1
    ensures RemoveExtraCol(AppendExtraCol(t, l).value).cols == t.cols
    ensures forall i :: 0 <= i < Rows(t) ==>
              RemoveExtraCol(AppendExtraCol(t, l).value).rows[i].entries == t.rows[i].entries
    ensures Consistent(t) ==> Consistent(RemoveExtraCol(AppendExtraCol(t, l).value))
  {
    var t1 := AppendExtraCol(t, l).value;
    var c := |t.cols|;
    var t2 := RemoveExtraCol(t1);
    assert t2.rows == PopAll(t1.rows, c, l.entries);
    forall i | 0 <= i < Rows(t)
      ensures t2.rows[i].entries == t.rows[i].entries
    {
      if i in Indices(l.entries) {
        var k :| 0 <= k < |l.entries| && l.entries[k].index == i;
        assert Append(t.rows[i], c, l.entries[k].value) == Some(t1.rows[i]) by {
          AppendExtraColRows(t, l);
        }
        assert t2.rows[i] == Pop(t1.rows[i], c) by {
          PopAllEffect(t1.rows, c, l.entries);
        }
        PopAfterAppend(t.rows[i], c, l.entries[k].value);
      } else {
        assert t1.rows[i] == t.rows[i] by {
          AppendExtraColRows(t, l);
        }
        assert t2.rows[i] == t1.rows[i] by {
          PopAllEffect(t1.rows, c, l.entries);
        }
      }
    }
    if Consistent(t) {
      SameEntriesConsistent(t, t2);
    }
  }
}

=== FILE: wrappers.dfy ===
/** The optional result used where an operation of the library can step outside its buffers. */
module Wrappers {

  datatype Option<+T> = None | Some(value: T)
}
